=== FILE: README.md ===
# Robot Race: coverage path finding

Robot Race puts four robots on the same square grid, where `-1` marks an obstacle and `0` an open cell. Each robot tries to stand on every open cell, starting from `(0, 0)` with a budget of `maxMoves`. Each robot keeps its own visit-count matrix and moves one orthogonal step per turn. How a robot picks its steps is what sets it apart:

- **Robot1**: steps to the least-visited open neighbour. It looks up, down, left, right, and among equal counts keeps that order.
- **Robot2**: searches breadth-first for the nearest cell it has never stood on, takes the first step, and searches again next turn.
- **Robot3**: runs A* in which stepping onto a cell costs `1 + 0.1 × count`. Its heuristic is the Manhattan distance to the origin, not to a goal. The robot stores the route and follows it one step per turn.
- **Robot4**: runs a depth-first search that is not allowed to revisit the cells on its current branch. It tries neighbours in ascending visit count, with ties in right, down, left, up order. It stores the path without its first cell and follows it.

A turn runs in this order:
1. A run stops once `moves >= maxMoves`. This check comes before the coverage check.
2. A run stops once every open cell has been stood on.
3. Otherwise the strategy acts: it takes one step, stores a plan, or ends the run as blocked. When blocked, the run records the obstacles around the robot.

When a run ends, the robot reports four things:
- the number of cells stood on;
- the number of open cells;
- whether a fresh scan finds full coverage;
- `moves - 1`.

The race page waits for all four reports. It then names the winner or the tied winners: the robots that covered the grid in the fewest moves. If no robot covered the grid, it lists the robots that moved at all.

Modules:
- `Seqs`: options, filters and order facts about sequences.
- `StableSort`: the stable sort by an integer key used by every `sort` call in the source.
- `GridModel`: the grid, positions, neighbours, walks and routes.
- `VisitMap`: visit counts, their sum, the coverage scan and the counts a result reports.
- `Greedy`, `Bfs`, `AStar`, `Dfs`: one strategy each.
- `Runner`: the turn loop, the result snapshot and the stop signal.
- `RobotModels`: the result record.
- `Race`: the verdict and the input clamps.

A* costs are kept in tenths of a step. Stepping onto a cell with count `c` costs `10 + c`. A priority is `g + 10 × (distance to the origin)`.

## Model

| member | source | states |
|---|---|---|
| Runner.Start | src/Robot1Component.tsx:36-45 | A run starts on (0, 0) with `moves == 1`, that cell counted once and every other count 0, nothing blocked and no plan. |
| Runner.StartValid | src/Robot1Component.tsx:36-45 | The starting state satisfies the turn-loop invariant: counts sum to `moves`, only open cells are counted, and the robot's cell is counted. |
| VisitMap.Initial | src/Robot1Component.tsx:36-37 | The initial matrix is square of the grid's side, with 1 at the origin and 0 everywhere else. |
| VisitMap.InitialTotal | src/Robot1Component.tsx:36-43 | The initial counts sum to 1, the initial move counter. |
| Greedy.Choose | src/Robot1Component.tsx:76-115 | Robot1 gets no choice exactly when none of the four neighbours is in bounds and not `-1`. Otherwise the choice is an open orthogonal neighbour with the least count among open neighbours. Every open neighbour earlier in up, down, left, right order has a strictly larger count, which is how the stable sort breaks ties. |
| GridModel.BlockedAround | src/Robot1Component.tsx:102-108 | The recorded blocked cells are exactly the orthogonal neighbours that are in bounds and `-1`, each once, in up, down, left, right order. |
| Runner.StepGreedy | src/Robot1Component.tsx:100-118 | A Robot1 turn without a choice ends the run with the blocked neighbours recorded. A turn with a choice steps onto the chosen cell. Either way the run invariant is kept. |
| VisitMap.Increment | src/Robot1Component.tsx:126-127 | A move raises the target cell's count by exactly one and leaves every other count as it was. |
| VisitMap.IncrementTotal | src/Robot1Component.tsx:124-134 | One move raises the sum of all counts by exactly one. |
| Runner.Move | src/Robot1Component.tsx:124-134 | A step puts the robot on the target, raises that count and the move counter by one, and changes nothing else. |
| Runner.MoveKeepsValid | src/Robot1Component.tsx:124-134 | A step to an open neighbour within the budget keeps the sum of counts equal to `moves`, keeps counts only on open cells, and keeps `moves <= maxMoves`. |
| Runner.Block | src/Robot1Component.tsx:101-111 | Ending blocked sets the finished flag and records the blocked neighbours. Position, counts and moves stay as they were. |
| VisitMap.ScanCovered | src/Robot1Component.tsx:58-69 | The nested coverage scan answers true exactly when every open cell has a nonzero count. |
| Runner.Step | src/Robot1Component.tsx:49-74 | A finished or stopped run does nothing. Checked in this order, the budget `moves >= maxMoves` and then full coverage each end the run unchanged. Any other turn dispatches on the robot. Robot1 steps onto the greedy choice or ends blocked without one. Robot2 steps onto the first cell of a nearest route to an unvisited cell, or ends blocked when none is reachable. Robot3 and Robot4 step onto the first cell of a stored plan and keep the rest. Only with an empty plan do they search: Robot3 stores a route ending on an unvisited cell through counted cells, one that a pop from some state meeting the A* search invariant reports, and Robot4 stores its DFS result without the first cell. Either ends blocked when its search finds nothing. The invariant and the reason for ending are kept. |
| Runner.Snapshot | src/Robot1Component.tsx:136-158 | The result reports `moves - 1`, the number of cells with a nonzero count, and the number of open cells. `isCleaningComplete` holds exactly when every open cell was stood on. Cells stood on never outnumber open cells and equal them when complete. |
| VisitMap.VisitedVersusCleanable | src/Robot1Component.tsx:150-155 | With counts only on open cells, `cellsVisited <= totalCleanableCells`, with equality under full coverage. |
| Runner.Run | src/Robot1Component.tsx:49-158 | A whole run terminates with counts summing to the reported moves plus one, and reports between 0 and `maxMoves - 1` moves. It reports complete exactly when every open cell was stood on. When incomplete, the budget was spent or the strategy was stuck. |
| Bfs.FindPath | src/components/Robot2Component.tsx:113-163 | The BFS route leaves out the start and is a chain of adjacent, open, in-bounds cells. When nonempty it ends on a count-0 cell with every earlier cell and the start counted. No walk from the start reaches a count-0 cell in fewer steps. When the start is counted, the route is empty exactly when no unvisited cell is reachable. At most size² entries are dequeued. |
| Bfs.FrontIsNearest | src/components/Robot2Component.tsx:130-137 | When an entry is dequeued, every walk from the start shorter than its path ends on a counted cell. |
| Bfs.ExhaustedSearch | src/components/Robot2Component.tsx:130-162 | When the queue runs empty, no unvisited cell is reachable from the start. |
| Bfs.Look | src/components/Robot2Component.tsx:141-158 | Looking in one direction marks and queues the neighbour only when it is in bounds, not `-1` and not yet marked, with the dequeued path extended by it. |
| Bfs.Expand | src/components/Robot2Component.tsx:140-160 | Expanding a cell only appends to the queue: entries for open, previously unmarked neighbours, each carrying the dequeued path extended by that cell. The newly marked cells are exactly those queued, and afterwards every open neighbour is marked. The queue stays ordered by path length. |
| Bfs.FoundRoute | src/components/Robot2Component.tsx:134-137 | A shortest walk that ends at the first count-0 cell, with its start dropped, satisfies all the route guarantees of `FindPath`. |
| Runner.StepBfs | src/components/Robot2Component.tsx:73-107 | A Robot2 turn searches afresh and takes only the first cell of the route, which is the first cell of a shortest route to an unvisited cell. It ends the run, with the blocked neighbours recorded, exactly when no unvisited cell is reachable. |
| AStar.Heuristic | src/Robot3Component.tsx:7-9 | The Manhattan distance is non-negative, zero only for equal points, and at least the difference along either axis. |
| AStar.HeuristicFacts | src/Robot3Component.tsx:7-9 | The distance is symmetric. One step changes the distance to the origin by exactly one. |
| AStar.Relax | src/Robot3Component.tsx:88-106 | A neighbour's cost and back pointer change only on a strict improvement, to the expanded cell's cost plus `10 + count`. A cell is queued only when it is not queued already, at cost plus ten times its distance to the origin. An already queued entry keeps its old priority. |
| AStar.PopIsLeast | src/Robot3Component.tsx:49-50 | The entry taken from the sorted open set has the least priority of all queued entries. Every entry queued before it has a strictly larger priority, so among equal priorities the earliest queued is taken. |
| AStar.Pop | src/Robot3Component.tsx:47-68 | Each pop closes one new in-bounds cell. The pop reports a route exactly when the least-priority cell has count 0. The route is then the back-pointer path from the start to that very cell, through closed cells, and has all route guarantees. Otherwise the search invariant holds for the rest of the search. |
| AStar.RouteTo | src/Robot3Component.tsx:55-64 | The route to the popped unvisited cell is empty exactly when that cell is the start, ends on that cell, runs through closed cells, and follows the back pointers from the start. |
| AStar.LinksFixRoute | src/Robot3Component.tsx:59-62 | The start has no back pointer, so two back-pointer chains from it that end on the same cell are the same chain. |
| AStar.TracedIsUnique | src/Robot3Component.tsx:55-64 | The back-pointer path from the start to a given cell is unique. |
| AStar.ReportsOneRoute | src/Robot3Component.tsx:47-64 | A pop from a given search state can report only one route. |
| AStar.Expand | src/Robot3Component.tsx:39-107 | Relaxing the four neighbours, in up, down, left, right order and skipping out-of-bounds, `-1` and closed cells, keeps costs, back pointers and the open set consistent. Every open neighbour of a closed cell ends up closed or queued. Each open, unclosed neighbour whose cost was unknown or larger than the expanded cell's cost plus `10 + count` gets exactly that cost and the expanded cell as back pointer. Every other cell keeps its cost and back pointer. The old open set is kept as a prefix, and each new entry is a neighbour that had no cost before, queued at its new cost plus ten times its distance to the origin. New entries are appended in up, down, left, right order of their direction, which decides ties between equal priorities at the next pop. |
| AStar.Look | src/Robot3Component.tsx:71-106 | One direction of the loop relaxes only that neighbour, and only when it is in bounds, not `-1` and not closed. Costs, back pointers and queue entries of all other cells are kept, and an entry it queues comes after those of the earlier directions. |
| AStar.DirOf | src/Robot3Component.tsx:39-44 | A direction index below four names the direction in which the cell lies from the centre; four means it is not a neighbour. |
| AStar.ExpandedBound | src/Robot3Component.tsx:89-97 | After an expansion every open, unclosed neighbour has a cost no larger than the expanded cell's cost plus `10 + count`. That cost and back pointer were written exactly when the tentative cost improved on the old one, and a cell that had a cost then ends with a strictly smaller one. |
| AStar.Reconstruct | src/Robot3Component.tsx:55-64 | Following the back pointers gives a route from the start to the target, without the start, through closed cells only. Each cell's back pointer is the cell before it, and the first cell's is the start. The route is empty exactly when the target is the start. |
| AStar.FoundRoute | src/Robot3Component.tsx:55-64 | A route reconstructed at the first popped count-0 cell has every non-final cell and the start counted. It is empty only when the start itself is unvisited. |
| AStar.NothingLeft | src/Robot3Component.tsx:47-111 | When the open set empties without a count-0 pop, no unvisited cell is reachable from the start. |
| AStar.FindPath | src/Robot3Component.tsx:12-112 | The A* route leaves out the start, is a chain of adjacent open cells, and ends on a count-0 cell with every earlier cell counted. When the start is counted, it is empty exactly when no unvisited cell is reachable. A nonempty route is the one the final pop reports: from the search state before that pop, the least-priority entry is the route's last cell, and the route is the back-pointer path to it. At most size² cells are popped, since none is expanded twice. |
| Runner.PlanAStar | src/Robot3Component.tsx:220-241 | A Robot3 turn without a plan stores the A* route without moving. The route passes only through counted cells before its unvisited last cell. It is a route that a pop from some state meeting the search invariant reports: the back-pointer path to that state's least-priority entry. The turn ends the run, with the blocked neighbours recorded, exactly when no unvisited cell is reachable. |
| Runner.FollowPlan | src/Robot3Component.tsx:199-218 | A turn with a stored plan steps onto its first cell, an open neighbour, and keeps the rest as the plan. |
| Runner.Cancel | src/Robot3Component.tsx:269-280 | The stop signal makes Robot3 and Robot4, and only them, report an incomplete result with `moves - 1` and the current counts. |
| Dfs.Neighbors | src/components/Robot4Component.tsx:8-23 | `getNeighbors` yields exactly the orthogonal neighbours that are in bounds and not `-1`, each once, in right, down, left, up order. |
| Dfs.CandidatesAre | src/components/Robot4Component.tsx:40-47 | The candidates are exactly the open neighbours not on the branch. They are distinct, sorted by count, and keep the `getNeighbors` order among equal counts. |
| Dfs.FindNextMove | src/components/Robot4Component.tsx:26-67 | A DFS result starts at the start cell, is a walk through adjacent open cells, repeats no cell, and avoids the branch. It ends on a count-0 cell, with every earlier cell counted. |
| Dfs.TryEach | src/components/Robot4Component.tsx:49-66 | Trying the candidates in order returns, when it returns anything, a search result from the current cell at least two cells long. |
| Dfs.SuccessIndex | src/components/Robot4Component.tsx:49-62 | When trying the candidates returns a path, there is a candidate whose sub-search succeeded, every earlier candidate's sub-search returned null, and the path is the current cell followed by that sub-search's result. |
| Dfs.TryEachFails | src/components/Robot4Component.tsx:49-66 | Trying the candidates returns null exactly when every candidate's sub-search returns null. |
| Dfs.PrependFind | src/components/Robot4Component.tsx:58-61 | Putting the current cell in front of a sub-search result gives a result for the current cell. |
| Dfs.FewerVisitsTriedFirst | src/components/Robot4Component.tsx:40-62 | The second cell of a result is a candidate. Every candidate with a smaller count, or an equal count and earlier in right, down, left, up order, found nothing. |
| Dfs.FindNextMoveComplete | src/components/Robot4Component.tsx:49-66 | Whenever a walk that avoids the branch reaches a count-0 cell, the search finds something. Null is returned only when no branch reaches an unvisited cell. |
| Dfs.FindFromRobot | src/components/Robot4Component.tsx:26-67 | From the robot's cell, the search returns null exactly when no unvisited cell is reachable. It returns `[start]` exactly when the start has count 0. |
| Runner.PlanDfs | src/components/Robot4Component.tsx:167-209 | A Robot4 turn without a plan stores the DFS result without its first cell. Without a result the turn ends the run as blocked, with the blocked neighbours recorded. |
| StableSort.SortByPermutes | src/Robot3Component.tsx:49 | Sorting by a key returns a permutation of its input, ordered by the key. |
| StableSort.SortByIsStable | src/App.tsx:87-89 | Sorting keeps the input order among elements with the same key. |
| StableSort.FilteredSortHead | src/Robot1Component.tsx:93-98 | The head of a filtered, sorted sequence is the first element that passes the filter with the least key. |
| Race.Verdict | src/App.tsx:72-124 | The verdict is empty exactly when some robot has not reported yet. |
| Race.BestScoreIsLeast | src/App.tsx:85-92 | The best score is the fewest moves made by any completed robot, and some completed robot made exactly that many. |
| Race.IsBestUnique | src/App.tsx:85-92 | Any fewest-moves value among completed robots is the best score, so one exists exactly when some robot completed. |
| Race.WinnersAre | src/App.tsx:83-94 | The winners are exactly the completed robots with the best score, in robot 1 to 4 order. |
| Race.JoinAndMany | src/App.tsx:100-104 | Joining two or more comma-free names with ", " and turning the last comma into " and" reads "A, B and C". |
| Race.JoinAndSingle | src/App.tsx:100-104 | A single comma-free name is left as it is. |
| Race.VerdictWhenCompleted | src/App.tsx:85-106 | When some robot completed and `m` is the fewest moves, one such robot "wins with m moves" and several "tie between A, B and C with m moves each". |
| Race.VerdictWhenNoneCompleted | src/App.tsx:107-122 | When no robot completed, the verdict lists the robots with `moves > 0` in robot order, or says that no robot made any moves. |
| Race.NatToStringValue | src/App.tsx:98 | The decimal digits printed for a count read back as that count. |
| Race.ClampGridSize | src/App.tsx:177 | The grid size is clamped into [4, 20], and a value already inside is kept. |
| Race.ClampMaxMoves | src/App.tsx:191 | The move budget is clamped into [10, 1000], and a value already inside is kept. |

## Left out

- Rendering, animation, colours and timers are not modelled. This covers `setTimeout` pacing, React state and effect re-firing, and the repeated emission of `onFinish`. Each robot becomes one synchronous turn function iterated by `Runner.Run`.
- `generateGrid` uses randomness. The grid is an input with the property `generateGrid` guarantees: square, with values in {0, -1} and an open start cell.
- `src/types/robot.ts`, imported by Robot1 and Robot3, is not part of this model. Its types are taken to be those of `src/types/robotModels.ts`.
- Robot names, emoji and `src/types/robotConfig.ts` are not modelled. Names are opaque strings, and the verdict lemmas assume they contain no comma.
- The `Number(...)` parse in the two clamps is not modelled, nor its NaN case. The clamps take integers.
- AStar.FindPath: costs are exact integers in tenths. The source adds `0.1 × count` in floating point, so rounding could order two nearly equal priorities differently.
- AStar.FindPath: the final search state is stated through the search invariant between pops, not as the outcome of the pops before it. That invariant does not tie priorities to the step costs summed along the back pointers.
- Runner.PlanAStar and Runner.Step: the stored Robot3 route is one that a pop from some state meeting the search invariant reports. It is not pinned to the route this run's search finds: on a fresh 2×2 grid both one-step routes meet the contract, where the search returns the one below the start.
- Bfs.FindPath: states that the route is as short as any and ends at an unvisited cell. Among several nearest unvisited cells, which one is chosen (the first dequeued) is computed by the model but not stated as a property.
- Bfs.FindPath and AStar.FindPath: the counter of dequeues or pops exists only to state the size² bound. The source has no such counter.
- Runner.PlanDfs: the source re-scans coverage after a DFS without a result. It could end the run as complete, but the scan at the start of the same turn saw the same counts and found an unvisited cell. So the model ends the run as blocked and shows that the re-scan answers false.
- Runner.Cancel: Robot1 and Robot2 have no stop-signal report, so only Robot3 and Robot4 produce one. On the race page the robots are unmounted as soon as the race stops, so this report never reaches the verdict.

=== FILE: astar.dfy ===
/** Robot3 (A*): when it has no stored path it runs an A* search from where
    it stands to the first cell with count 0 that the search pops, and stores
    the path to follow one step per turn. Costs favour cells stood on less;
    the heuristic is the distance to the origin, not to any goal, so the
    search is a best-first exploration rather than a shortest-path search.

    Costs are kept in tenths so that they are integers: stepping onto a cell
    with count `k` costs `10 + k` (the source's `1 + 0.1 * k`), and the
    priority of a cell is its cost plus ten times its heuristic. */
module AStar {
  import opened Seqs
  import opened GridModel
  import opened VisitMap
  import opened StableSort

  function Abs(x: int): nat {
    if x < 0 then -x else x
  }

  /** `calculateHeuristic`: the Manhattan distance between two cells. */
  function Heuristic(x1: int, y1: int, x2: int, y2: int): (h: int)
    ensures h >= 0
    ensures h == 0 <==> x1 == x2 && y1 == y2
    ensures h >= x1 - x2 && h >= x2 - x1 && h >= y1 - y2 && h >= y2 - y1
  {
    Abs(x1 - x2) + Abs(y1 - y2)
  }

  /** The heuristic the search uses for a cell: its distance to (0, 0). */
  function ToOrigin(p: Pos): nat {
    Heuristic(p.row, p.col, 0, 0)
  }

  /** The distance is symmetric, and one step changes the distance to the
      origin by exactly one, up or down. */
  lemma HeuristicFacts(p: Pos, q: Pos)
    ensures Heuristic(p.row, p.col, q.row, q.col) == Heuristic(q.row, q.col, p.row, p.col)
    ensures Adjacent(p, q) ==> ToOrigin(q) == ToOrigin(p) + 1 || ToOrigin(q) == ToOrigin(p) - 1
  {
  }

  /** Cost, in tenths, of stepping onto a cell stood on `count` times. */
  function StepCost(count: int): int {
    10 + count
  }

  /** An open-set entry: a cell and the priority it was queued with. */
  datatype OpenEntry = OpenEntry(pos: Pos, f: int)

  function ByF(e: OpenEntry): int {
    e.f
  }

  predicate DifferentPos(a: OpenEntry, b: OpenEntry) {
    a.pos != b.pos
  }

  /** The search state besides the closed set: the open set, the back
      pointers and the best known cost of every reached cell. */
  datatype Frontier = Frontier(open: seq<OpenEntry>, cameFrom: map<Pos, Pos>, g: map<Pos, int>)

  function EntryPos(e: OpenEntry): Pos {
    e.pos
  }

  /** The queued cells. */
  ghost function Positions(open: seq<OpenEntry>): set<Pos> {
    CellsOf(open, EntryPos)
  }

  predicate HasPos(open: seq<OpenEntry>, p: Pos) {
    exists k :: 0 <= k < |open| && open[k].pos == p
  }

  /** Whether reaching `nb` from `c` at cost `t` improves on what is known. */
  predicate Improves(s: Frontier, nb: Pos, t: int) {
    nb !in s.g || t < s.g[nb]
  }

  /** Looking at one neighbour `nb` of the expanded cell `c`, whose cost is
      `gc`. A strictly cheaper way in replaces the cost and the back pointer;
      the cell is queued only when it is not queued already, so an entry that
      is already queued keeps the priority it was queued with. */
  function Relax(s: Frontier, c: Pos, gc: int, nb: Pos, count: int): (r: Frontier)
    ensures r.g.Keys == s.g.Keys + {nb}
    ensures forall x :: x in s.g && x != nb ==> r.g[x] == s.g[x]
    ensures nb in s.g ==> r.g[nb] <= s.g[nb] && r.g[nb] <= gc + StepCost(count)
    ensures nb in s.g && s.g[nb] <= gc + StepCost(count) ==> r == s
    ensures Improves(s, nb, gc + StepCost(count)) ==>
              r.g[nb] == gc + StepCost(count) && r.cameFrom == s.cameFrom[nb := c]
    ensures |s.open| <= |r.open| <= |s.open| + 1 && r.open[..|s.open|] == s.open
    ensures Positions(r.open) == Positions(s.open) + (if Improves(s, nb, gc + StepCost(count)) then {nb} else {})
    ensures |r.open| > |s.open| ==> nb !in Positions(s.open)
                                    && r.open[|s.open|] == OpenEntry(nb, r.g[nb] + 10 * ToOrigin(nb))
  {
    var t := gc + StepCost(count);
    if Improves(s, nb, t) then
      var cameFrom := s.cameFrom[nb := c];
      var g := s.g[nb := t];
      var f := t + 10 * ToOrigin(nb);
      if HasPos(s.open, nb) then
        assert nb in Positions(s.open) by {
          var k :| 0 <= k < |s.open| && s.open[k].pos == nb;
        }
        Frontier(s.open, cameFrom, g)
      else
        var open := s.open + [OpenEntry(nb, f)];
        CellsOfAppend(s.open, OpenEntry(nb, f), EntryPos);
        assert open[..|s.open|] == s.open;
        Frontier(open, cameFrom, g)
    else
      s
  }

  /** A closed cell other than the start has a back pointer. Matched only on
      `Rooted` itself, so that following back pointers is never automatic. */
  ghost predicate Rooted(start: Pos, cameFrom: map<Pos, Pos>, x: Pos) {
    x == start || x in cameFrom
  }

  /** The open set: no entry closed, every entry costed, in bounds and
      rooted, and no cell queued twice. */
  ghost predicate OpenOk(grid: Grid, start: Pos, s: Frontier, closed: set<Pos>) {
    && (forall k :: 0 <= k < |s.open| ==>
          && s.open[k].pos !in closed && s.open[k].pos in s.g && InBounds(|grid|, s.open[k].pos)
          && (s.open[k].pos == start || s.open[k].pos in s.cameFrom))
    && Pairwise(s.open, DifferentPos)
  }

  /** Every costed cell is closed or still queued. */
  ghost predicate CostOk(start: Pos, s: Frontier, closed: set<Pos>) {
    && start in s.g
    && (forall x :: x in s.g ==> x in closed || x in Positions(s.open))
  }

  /** Closed cells are in bounds, visited, costed and rooted, and the start
      is the first cell closed. */
  ghost predicate ClosedOk(grid: Grid, v: Visits, start: Pos, s: Frontier, closed: set<Pos>) {
    && (forall x :: x in closed ==> InBounds(|grid|, x) && VisitsAt(v, x) != 0 && x in s.g)
    && (forall x {:trigger Rooted(start, s.cameFrom, x)} :: x in closed ==> Rooted(start, s.cameFrom, x))
    && (closed != {} ==> start in closed)
  }

  /** A back pointer leads from an open cell to a neighbour closed before it. */
  ghost predicate LinksOk(grid: Grid, start: Pos, s: Frontier, closed: set<Pos>, rank: map<Pos, nat>) {
    && rank.Keys == closed && (forall x :: x in rank ==> rank[x] < |closed|)
    && (forall x :: x in s.cameFrom ==>
          x != start && Adjacent(s.cameFrom[x], x) && IsOpen(grid, x) && s.cameFrom[x] in closed)
    && (forall x :: x in s.cameFrom && x in closed ==> rank[s.cameFrom[x]] < rank[x])
  }

  /** What the search keeps true between two pops. `closed` is the source's
      `visited` set; `rank` numbers the closed cells in closing order. */
  ghost predicate Consistent(grid: Grid, v: Visits, start: Pos, s: Frontier, closed: set<Pos>, rank: map<Pos, nat>) {
    && OpenOk(grid, start, s, closed)
    && CostOk(start, s, closed)
    && ClosedOk(grid, v, start, s, closed)
    && LinksOk(grid, start, s, closed, rank)
  }

  /** Every open neighbour of `x` is in `reached`. */
  ghost predicate Enclosed(grid: Grid, x: Pos, reached: set<Pos>) {
    forall d :: 0 <= d < 4 && IsOpen(grid, Shift(x, UpDownLeftRight[d])) ==> Shift(x, UpDownLeftRight[d]) in reached
  }

  /** Every closed cell, except those in `except`, has all its open
      neighbours closed or queued. */
  ghost predicate Enclosure(grid: Grid, closed: set<Pos>, open: seq<OpenEntry>, except: set<Pos>) {
    forall x {:trigger Enclosed(grid, x, closed + Positions(open))} ::
      x in closed && x !in except ==> Enclosed(grid, x, closed + Positions(open))
  }

  /** The first `d` directions around `c` lead to closed or queued cells. */
  ghost predicate EnclosedUpTo(grid: Grid, c: Pos, reached: set<Pos>, d: int) {
    forall d' :: 0 <= d' < d <= 4 && IsOpen(grid, Shift(c, UpDownLeftRight[d'])) ==> Shift(c, UpDownLeftRight[d']) in reached
  }

  lemma EnclosureGrows(grid: Grid, closed: set<Pos>, open: seq<OpenEntry>, open': seq<OpenEntry>, except: set<Pos>)
    requires Enclosure(grid, closed, open, except)
    requires Positions(open) <= Positions(open')
    ensures Enclosure(grid, closed, open', except)
  {
    forall x | x in closed && x !in except ensures Enclosed(grid, x, closed + Positions(open')) {
      assert Enclosed(grid, x, closed + Positions(open));
    }
  }

  lemma PositionsOfPermutation(a: seq<OpenEntry>, b: seq<OpenEntry>)
    requires multiset(a) == multiset(b)
    ensures Positions(a) == Positions(b)
  {
    forall q | q in Positions(a) ensures q in Positions(b) {
      var k :| 0 <= k < |a| && a[k].pos == q;
      assert a[k] in multiset(b);
      var i :| 0 <= i < |b| && b[i] == a[k];
    }
    forall q | q in Positions(b) ensures q in Positions(a) {
      var k :| 0 <= k < |b| && b[k].pos == q;
      assert b[k] in multiset(a);
      var i :| 0 <= i < |a| && a[i] == b[k];
    }
  }

  /** Every entry qualifies for the pop. */
  predicate AnyEntry(e: OpenEntry) {
    true
  }

  /** The popped entry has the least priority of the open set, and every
      entry queued before it has a strictly larger priority: among equal
      priorities the earliest queued is popped. */
  lemma PopIsLeast(open: seq<OpenEntry>)
    requires |open| > 0
    ensures |SortBy(open, ByF)| == |open|
    ensures SortBy(open, ByF)[0] in open
    ensures forall k :: 0 <= k < |open| ==> ByF(SortBy(open, ByF)[0]) <= ByF(open[k])
    ensures IsFirstLeast(open, AnyEntry, ByF, SortBy(open, ByF)[0])
  {
    var sorted := SortBy(open, ByF);
    SortByPermutes(open, ByF);
    forall k | 0 <= k < |open| ensures ByF(sorted[0]) <= ByF(open[k]) {
      var i :| 0 <= i < |sorted| && sorted[i] == open[k];
    }
    FilterKeepsAll(open, AnyEntry);
    FilteredSortHead(open, AnyEntry, ByF);
  }

  /** Popping: the entry with the least priority (`PopIsLeast`) leaves the
      open set; the rest keep their order and no other
      entry has the popped cell. */
  lemma PopFacts(s: Frontier)
    requires |s.open| > 0
    requires Pairwise(s.open, DifferentPos)
    ensures |SortBy(s.open, ByF)| == |s.open|
    ensures SortBy(s.open, ByF)[0] in s.open
    ensures forall k :: 1 <= k < |s.open| ==> SortBy(s.open, ByF)[k] in s.open
    ensures Pairwise(SortBy(s.open, ByF)[1..], DifferentPos)
    ensures Positions(SortBy(s.open, ByF)[1..]) + {SortBy(s.open, ByF)[0].pos} == Positions(s.open)
    ensures SortBy(s.open, ByF)[0].pos !in Positions(SortBy(s.open, ByF)[1..])
  {
    var sorted := SortBy(s.open, ByF);
    SortByPermutes(s.open, ByF);
    SortByKeepsPairwise(s.open, ByF, DifferentPos);
    TailKeepsPairwise(sorted, DifferentPos);
    PositionsOfPermutation(sorted, s.open);
    CellsOfTail(sorted, EntryPos);
    var rest := sorted[1..];
    forall q | q in Positions(rest) ensures q != sorted[0].pos {
      var k :| 0 <= k < |rest| && rest[k].pos == q;
      assert DifferentPos(sorted[0], sorted[k + 1]);
    }
  }

  /** The popped cell is neither closed nor without a back pointer, and it is
      the start when nothing is closed yet. */
  lemma PopHead(grid: Grid, v: Visits, start: Pos, s: Frontier, closed: set<Pos>, rank: map<Pos, nat>)
    requires |s.open| > 0
    requires OpenOk(grid, start, s, closed) && ClosedOk(grid, v, start, s, closed)
    requires LinksOk(grid, start, s, closed, rank)
    ensures var c := SortBy(s.open, ByF)[0].pos;
      && c !in closed && InBounds(|grid|, c) && c in s.g && Rooted(start, s.cameFrom, c)
      && (closed == {} ==> c == start)
  {
    PopFacts(s);
    var c := SortBy(s.open, ByF)[0].pos;
    var i :| 0 <= i < |s.open| && s.open[i] == SortBy(s.open, ByF)[0];
    assert Rooted(start, s.cameFrom, c);
  }

  lemma PopKeepsOpenOk(grid: Grid, start: Pos, s: Frontier, closed: set<Pos>)
    requires |s.open| > 0 && OpenOk(grid, start, s, closed)
    ensures OpenOk(grid, start, s.(open := SortBy(s.open, ByF)[1..]), closed + {SortBy(s.open, ByF)[0].pos})
  {
    PopFacts(s);
    var sorted := SortBy(s.open, ByF);
    var rest := sorted[1..];
    forall k | 0 <= k < |rest|
      ensures rest[k].pos !in closed + {sorted[0].pos} && rest[k].pos in s.g && InBounds(|grid|, rest[k].pos)
      ensures rest[k].pos == start || rest[k].pos in s.cameFrom
    {
      assert rest[k] == sorted[k + 1];
      assert rest[k].pos in Positions(rest);
      var j :| 0 <= j < |s.open| && s.open[j] == sorted[k + 1];
    }
  }

  lemma PopKeepsCostOk(start: Pos, s: Frontier, closed: set<Pos>, rest: seq<OpenEntry>, c: Pos)
    requires CostOk(start, s, closed)
    requires Positions(rest) + {c} == Positions(s.open)
    ensures CostOk(start, s.(open := rest), closed + {c})
  {
  }

  lemma CloseKeepsClosedOk(grid: Grid, v: Visits, start: Pos, s: Frontier, closed: set<Pos>, rest: seq<OpenEntry>, c: Pos)
    requires ClosedOk(grid, v, start, s, closed)
    requires InBounds(|grid|, c) && VisitsAt(v, c) != 0 && c in s.g && Rooted(start, s.cameFrom, c)
    requires closed == {} ==> c == start
    ensures ClosedOk(grid, v, start, s.(open := rest), closed + {c})
  {
    forall x {:trigger Rooted(start, s.cameFrom, x)} | x in closed + {c} ensures Rooted(start, s.cameFrom, x) {
    }
  }

  lemma CloseKeepsLinksOk(grid: Grid, start: Pos, s: Frontier, closed: set<Pos>, rank: map<Pos, nat>,
                          rest: seq<OpenEntry>, c: Pos)
    requires LinksOk(grid, start, s, closed, rank) && c !in closed
    ensures LinksOk(grid, start, s.(open := rest), closed + {c}, rank[c := |closed|])
  {
    var rank' := rank[c := |closed|];
    assert |closed + {c}| == |closed| + 1;
    forall x | x in s.cameFrom && x in closed + {c} ensures rank'[s.cameFrom[x]] < rank'[x] {
      if x != c {
        assert rank[s.cameFrom[x]] < rank[x];
      }
    }
  }

  lemma PopKeepsEnclosure(grid: Grid, closed: set<Pos>, open: seq<OpenEntry>, rest: seq<OpenEntry>, c: Pos)
    requires Enclosure(grid, closed, open, {})
    requires Positions(rest) + {c} == Positions(open)
    ensures Enclosure(grid, closed + {c}, rest, {c})
  {
    assert closed + {c} + Positions(rest) == closed + Positions(open);
    forall x | x in closed + {c} && x !in {c} ensures Enclosed(grid, x, closed + {c} + Positions(rest)) {
      assert Enclosed(grid, x, closed + Positions(open));
    }
  }

  /** Popping the cell `c` and, when it is visited, closing it keeps every
      fact, with only `c` still to be enclosed. */
  lemma PopKeepsConsistent(grid: Grid, v: Visits, start: Pos, s: Frontier, closed: set<Pos>, rank: map<Pos, nat>)
    requires |s.open| > 0
    requires Consistent(grid, v, start, s, closed, rank)
    requires Enclosure(grid, closed, s.open, {})
    ensures var c := SortBy(s.open, ByF)[0].pos;
      && c !in closed && InBounds(|grid|, c) && c in s.g && Rooted(start, s.cameFrom, c)
      && (closed == {} ==> c == start)
    ensures var c := SortBy(s.open, ByF)[0].pos;
      VisitsAt(v, c) != 0 ==>
        && Consistent(grid, v, start, s.(open := SortBy(s.open, ByF)[1..]), closed + {c}, rank[c := |closed|])
        && Enclosure(grid, closed + {c}, SortBy(s.open, ByF)[1..], {c})
  {
    var sorted := SortBy(s.open, ByF);
    var c := sorted[0].pos;
    var rest := sorted[1..];
    PopFacts(s);
    PopHead(grid, v, start, s, closed, rank);
    if VisitsAt(v, c) != 0 {
      PopKeepsOpenOk(grid, start, s, closed);
      PopKeepsCostOk(start, s, closed, rest, c);
      CloseKeepsClosedOk(grid, v, start, s, closed, rest, c);
      CloseKeepsLinksOk(grid, start, s, closed, rank, rest, c);
      PopKeepsEnclosure(grid, closed, s.open, rest, c);
    }
  }

  lemma RelaxKeepsOpenOk(grid: Grid, start: Pos, s: Frontier, closed: set<Pos>, c: Pos, gc: int, nb: Pos, count: int)
    requires WellFormed(grid)
    requires OpenOk(grid, start, s, closed)
    requires IsOpen(grid, nb) && nb !in closed
    ensures OpenOk(grid, start, Relax(s, c, gc, nb, count), closed)
  {
    var r := Relax(s, c, gc, nb, count);
    if |r.open| > |s.open| {
      var e := OpenEntry(nb, r.g[nb] + 10 * ToOrigin(nb));
      assert r.open == s.open + [e];
      forall k | 0 <= k < |r.open|
        ensures r.open[k].pos !in closed && r.open[k].pos in r.g && InBounds(|grid|, r.open[k].pos)
        ensures r.open[k].pos == start || r.open[k].pos in r.cameFrom
      {
        if k < |s.open| {
          assert r.open[k] == s.open[k];
        }
      }
      forall k | 0 <= k < |s.open| ensures s.open[k].pos != nb {
        assert s.open[k].pos in Positions(s.open);
      }
      AppendKeepsPairwise(s.open, e);
    } else {
      assert r.open == s.open;
      forall k | 0 <= k < |r.open|
        ensures r.open[k].pos in r.g && (r.open[k].pos == start || r.open[k].pos in r.cameFrom)
      {
        assert s.open[k].pos in s.g;
      }
    }
  }

  lemma RelaxKeepsCostOk(start: Pos, s: Frontier, closed: set<Pos>, c: Pos, gc: int, nb: Pos, count: int)
    requires CostOk(start, s, closed)
    ensures CostOk(start, Relax(s, c, gc, nb, count), closed)
    ensures nb in closed || nb in Positions(Relax(s, c, gc, nb, count).open)
  {
    var r := Relax(s, c, gc, nb, count);
    if nb !in Positions(r.open) {
      assert nb in s.g;
    }
  }

  lemma RelaxKeepsClosedOk(grid: Grid, v: Visits, start: Pos, s: Frontier, closed: set<Pos>, c: Pos, gc: int, nb: Pos, count: int)
    requires ClosedOk(grid, v, start, s, closed)
    ensures ClosedOk(grid, v, start, Relax(s, c, gc, nb, count), closed)
  {
    var r := Relax(s, c, gc, nb, count);
    forall x {:trigger Rooted(start, r.cameFrom, x)} | x in closed ensures Rooted(start, r.cameFrom, x) {
      assert Rooted(start, s.cameFrom, x);
    }
  }

  lemma RelaxKeepsLinksOk(grid: Grid, start: Pos, s: Frontier, closed: set<Pos>, rank: map<Pos, nat>,
                          c: Pos, gc: int, nb: Pos, count: int)
    requires LinksOk(grid, start, s, closed, rank)
    requires c in closed && Adjacent(c, nb) && IsOpen(grid, nb) && nb !in closed && start in closed
    ensures LinksOk(grid, start, Relax(s, c, gc, nb, count), closed, rank)
  {
  }

  /** Looking at one open, not closed neighbour keeps every fact and leaves
      the neighbour queued. */
  lemma RelaxKeepsConsistent(grid: Grid, v: Visits, start: Pos, s: Frontier, closed: set<Pos>, rank: map<Pos, nat>,
                             c: Pos, gc: int, nb: Pos, count: int)
    requires WellFormed(grid)
    requires Consistent(grid, v, start, s, closed, rank)
    requires Enclosure(grid, closed, s.open, {c})
    requires c in closed && Adjacent(c, nb) && IsOpen(grid, nb) && nb !in closed
    ensures Consistent(grid, v, start, Relax(s, c, gc, nb, count), closed, rank)
    ensures Enclosure(grid, closed, Relax(s, c, gc, nb, count).open, {c})
    ensures nb in closed + Positions(Relax(s, c, gc, nb, count).open)
    ensures Positions(s.open) <= Positions(Relax(s, c, gc, nb, count).open)
  {
    var r := Relax(s, c, gc, nb, count);
    assert start in closed;
    RelaxKeepsOpenOk(grid, start, s, closed, c, gc, nb, count);
    RelaxKeepsCostOk(start, s, closed, c, gc, nb, count);
    RelaxKeepsClosedOk(grid, v, start, s, closed, c, gc, nb, count);
    RelaxKeepsLinksOk(grid, start, s, closed, rank, c, gc, nb, count);
    EnclosureGrows(grid, closed, s.open, r.open, {c});
  }

  lemma AppendKeepsPairwise(open: seq<OpenEntry>, e: OpenEntry)
    requires Pairwise(open, DifferentPos)
    requires forall k :: 0 <= k < |open| ==> open[k].pos != e.pos
    ensures Pairwise(open + [e], DifferentPos)
  {
    var o := open + [e];
    forall i, j | 0 <= i < |o| && 0 <= j < |o| && i != j ensures DifferentPos(o[i], o[j]) {
      if i < |open| && j < |open| {
        assert o[i] == open[i] && o[j] == open[j];
      } else if i < |open| {
        assert o[i] == open[i];
      } else {
        assert o[j] == open[j];
      }
    }
  }

  lemma EnclosedUpToStep(grid: Grid, c: Pos, reached: set<Pos>, reached': set<Pos>, d: int)
    requires 0 <= d < 4 && EnclosedUpTo(grid, c, reached, d) && reached <= reached'
    requires IsOpen(grid, Shift(c, UpDownLeftRight[d])) ==> Shift(c, UpDownLeftRight[d]) in reached'
    ensures EnclosedUpTo(grid, c, reached', d + 1)
  {
  }

  /** `x` has the same cost and back pointer, or none, in `s` and `s'`. */
  ghost predicate Untouched(s: Frontier, s': Frontier, x: Pos) {
    && (x in s'.g <==> x in s.g) && (x in s.g ==> s'.g[x] == s.g[x])
    && (x in s'.cameFrom <==> x in s.cameFrom) && (x in s.cameFrom ==> s'.cameFrom[x] == s.cameFrom[x])
  }

  /** The neighbour `nb` of `c` looked at with the tentative cost `t`: when
      `t` improves on what is known, `nb` costs `t` and comes from `c`;
      otherwise its cost and back pointer stay. */
  ghost predicate RelaxedAt(s: Frontier, s': Frontier, c: Pos, nb: Pos, t: int) {
    if Improves(s, nb, t) then nb in s'.g && s'.g[nb] == t && nb in s'.cameFrom && s'.cameFrom[nb] == c
    else Untouched(s, s', nb)
  }

  /** What looking in the first `d` directions around `c` did to the costs
      and back pointers of `s`. Every open, unclosed neighbour among them was
      relaxed with Robot3's tentative cost: the cost of `c` plus the step
      cost of the neighbour's own count. Every other cell keeps its cost and
      back pointer. */
  ghost predicate CostedUpTo(grid: Grid, v: Visits, closed: set<Pos>, c: Pos, s: Frontier, s': Frontier, d: int) {
    && c in s.g
    && (forall e :: 0 <= e < 4 ==>
          if e < d && IsOpen(grid, Shift(c, UpDownLeftRight[e])) && Shift(c, UpDownLeftRight[e]) !in closed
          then RelaxedAt(s, s', c, Shift(c, UpDownLeftRight[e]), s.g[c] + StepCost(VisitsAt(v, Shift(c, UpDownLeftRight[e]))))
          else Untouched(s, s', Shift(c, UpDownLeftRight[e])))
    && (forall x :: !Adjacent(c, x) ==> Untouched(s, s', x))
  }

  /** The open set grew only at its end, by neighbours of `c` reached for
      the first time, each queued with its cost plus ten times its distance
      to the origin. */
  ghost predicate QueuedAfter(c: Pos, s: Frontier, s': Frontier) {
    && |s.open| <= |s'.open| && s'.open[..|s.open|] == s.open
    && (forall k :: |s.open| <= k < |s'.open| ==>
          && Adjacent(c, s'.open[k].pos) && s'.open[k].pos !in s.g && s'.open[k].pos in s'.g
          && s'.open[k].f == s'.g[s'.open[k].pos] + 10 * ToOrigin(s'.open[k].pos))
  }

  /** The direction, as an index into `UpDownLeftRight`, in which `p` lies
      from `c`; 4 when `p` is not a neighbour of `c`. */
  function DirOf(c: Pos, p: Pos): (d: nat)
    ensures d <= 4
    ensures d < 4 ==> p == Shift(c, UpDownLeftRight[d])
  {
    if p == Shift(c, UpDownLeftRight[0]) then 0
    else if p == Shift(c, UpDownLeftRight[1]) then 1
    else if p == Shift(c, UpDownLeftRight[2]) then 2
    else if p == Shift(c, UpDownLeftRight[3]) then 3
    else 4
  }

  /** The entries appended to the open set come from the first `d`
      directions around `c`, in the loop's up, down, left, right order. */
  ghost predicate QueuedInOrder(c: Pos, s: Frontier, s': Frontier, d: int) {
    && (forall k :: |s.open| <= k < |s'.open| ==> DirOf(c, s'.open[k].pos) < d)
    && (forall k, k' :: |s.open| <= k < k' < |s'.open| ==> DirOf(c, s'.open[k].pos) < DirOf(c, s'.open[k'].pos))
  }

  /** What looking in the first `d` directions around `c` did to `s`. */
  ghost predicate ExpandedUpTo(grid: Grid, v: Visits, closed: set<Pos>, c: Pos, s: Frontier, s': Frontier, d: int) {
    CostedUpTo(grid, v, closed, c, s, s', d) && QueuedAfter(c, s, s') && QueuedInOrder(c, s, s', d)
  }

  /** The four neighbours of a cell are four different cells. */
  lemma ShiftsDiffer(c: Pos, d: int, e: int)
    requires 0 <= d < 4 && 0 <= e < 4 && d != e
    ensures Shift(c, UpDownLeftRight[d]) != Shift(c, UpDownLeftRight[e])
  {
    AroundIsDistinct(c);
    var a := Around(c, UpDownLeftRight);
    if d < e {
      assert a[d] != a[e];
    } else {
      assert a[e] != a[d];
    }
  }

  /** The neighbour in direction `d` lies in direction `d`. */
  lemma DirOfShift(c: Pos, d: int)
    requires 0 <= d < 4
    ensures DirOf(c, Shift(c, UpDownLeftRight[d])) == d
  {
  }

  /** Looking in direction `d` appends at most the neighbour in that
      direction, after those of the earlier directions. */
  lemma LookOrders(c: Pos, s: Frontier, s1: Frontier, s2: Frontier, d: int)
    requires 0 <= d < 4 && QueuedInOrder(c, s, s1, d) && |s.open| <= |s1.open|
    requires |s1.open| <= |s2.open| <= |s1.open| + 1 && s2.open[..|s1.open|] == s1.open
    requires |s2.open| > |s1.open| ==> s2.open[|s1.open|].pos == Shift(c, UpDownLeftRight[d])
    ensures QueuedInOrder(c, s, s2, d + 1)
  {
  }

  lemma PositionsOfPrefix(a: seq<OpenEntry>, b: seq<OpenEntry>)
    requires |a| <= |b| && b[..|a|] == a
    ensures Positions(a) <= Positions(b)
  {
    forall q | q in Positions(a) ensures q in Positions(b) {
      var k :| 0 <= k < |a| && a[k].pos == q;
      assert b[k] == a[k];
    }
  }

  /** Relaxing the neighbour in direction `d` extends what the first `d`
      directions did to costs and back pointers. */
  lemma LookCosts(grid: Grid, v: Visits, closed: set<Pos>, c: Pos, s: Frontier, s1: Frontier, d: int)
    requires 0 <= d < 4 && CostedUpTo(grid, v, closed, c, s, s1, d)
    requires IsOpen(grid, Shift(c, UpDownLeftRight[d])) && Shift(c, UpDownLeftRight[d]) !in closed
    ensures var nb := Shift(c, UpDownLeftRight[d]);
      CostedUpTo(grid, v, closed, c, s, Relax(s1, c, s.g[c], nb, VisitsAt(v, nb)), d + 1)
  {
    var nb := Shift(c, UpDownLeftRight[d]);
    ShiftIsAdjacent(c, d);
    var s2 := Relax(s1, c, s.g[c], nb, VisitsAt(v, nb));
    assert Untouched(s, s1, nb);
    forall e | 0 <= e < 4 && e != d
      ensures var q := Shift(c, UpDownLeftRight[e]);
        if e < d + 1 && IsOpen(grid, q) && q !in closed
        then RelaxedAt(s, s2, c, q, s.g[c] + StepCost(VisitsAt(v, q)))
        else Untouched(s, s2, q)
    {
      ShiftsDiffer(c, d, e);
    }
    forall x | !Adjacent(c, x) ensures Untouched(s, s2, x) {
      assert x != nb;
    }
  }

  /** Relaxing the neighbour in direction `d` extends what the first `d`
      directions did to the open set. */
  lemma LookQueues(grid: Grid, v: Visits, start: Pos, closed: set<Pos>, c: Pos, s: Frontier, s1: Frontier, d: int)
    requires 0 <= d < 4 && CostedUpTo(grid, v, closed, c, s, s1, d) && QueuedAfter(c, s, s1)
    requires CostOk(start, s1, closed)
    requires IsOpen(grid, Shift(c, UpDownLeftRight[d])) && Shift(c, UpDownLeftRight[d]) !in closed
    ensures var nb := Shift(c, UpDownLeftRight[d]);
      QueuedAfter(c, s, Relax(s1, c, s.g[c], nb, VisitsAt(v, nb)))
  {
    var nb := Shift(c, UpDownLeftRight[d]);
    ShiftIsAdjacent(c, d);
    var s2 := Relax(s1, c, s.g[c], nb, VisitsAt(v, nb));
    assert Untouched(s, s1, nb);
    PositionsOfPrefix(s.open, s1.open);
    forall k | |s.open| <= k < |s2.open|
      ensures && Adjacent(c, s2.open[k].pos) && s2.open[k].pos !in s.g && s2.open[k].pos in s2.g
              && s2.open[k].f == s2.g[s2.open[k].pos] + 10 * ToOrigin(s2.open[k].pos)
    {
      if k < |s1.open| {
        assert s2.open[k] == s1.open[k];
      } else {
        assert nb !in Positions(s1.open);
      }
    }
    assert s2.open[..|s.open|] == s.open by {
      assert s2.open[..|s1.open|] == s1.open;
    }
  }

  /** One pass of the neighbour loop: the neighbour of `c` in direction
      `d` is relaxed when it is open and not closed. */
  method Look(grid: Grid, v: Visits, start: Pos, c: Pos, s: Frontier, s1: Frontier,
              closed: set<Pos>, ghost rank: map<Pos, nat>, d: int) returns (s2: Frontier)
    requires WellFormed(grid) && 0 <= d < 4
    requires Consistent(grid, v, start, s1, closed, rank) && c in closed
    requires Enclosure(grid, closed, s1.open, {c})
    requires EnclosedUpTo(grid, c, closed + Positions(s1.open), d)
    requires ExpandedUpTo(grid, v, closed, c, s, s1, d)
    ensures Consistent(grid, v, start, s2, closed, rank)
    ensures Enclosure(grid, closed, s2.open, {c})
    ensures EnclosedUpTo(grid, c, closed + Positions(s2.open), d + 1)
    ensures ExpandedUpTo(grid, v, closed, c, s, s2, d + 1)
  {
    var nb := Shift(c, UpDownLeftRight[d]);
    s2 := s1;
    if IsOpen(grid, nb) && nb !in closed {
      LookCosts(grid, v, closed, c, s, s1, d);
      LookQueues(grid, v, start, closed, c, s, s1, d);
      LookOrders(c, s, s1, Relax(s1, c, s.g[c], nb, VisitsAt(v, nb)), d);
      ShiftIsAdjacent(c, d);
      RelaxKeepsConsistent(grid, v, start, s1, closed, rank, c, s.g[c], nb, VisitsAt(v, nb));
      s2 := Relax(s1, c, s.g[c], nb, VisitsAt(v, nb));
    }
    EnclosedUpToStep(grid, c, closed + Positions(s1.open), closed + Positions(s2.open), d);
  }

  /** The neighbour loop of the cell `c` just closed: every open neighbour
      that is not closed is relaxed, in up, down, left, right order, with
      the tentative cost `g(c) + 1 + 0.1 × count` (in tenths). */
  method Expand(grid: Grid, v: Visits, start: Pos, c: Pos, s: Frontier,
                closed: set<Pos>, ghost rank: map<Pos, nat>) returns (s': Frontier)
    requires WellFormed(grid)
    requires Consistent(grid, v, start, s, closed, rank) && c in closed
    requires Enclosure(grid, closed, s.open, {c})
    ensures Consistent(grid, v, start, s', closed, rank)
    ensures Enclosure(grid, closed, s'.open, {})
    ensures ExpandedUpTo(grid, v, closed, c, s, s', 4)
  {
    s' := s;
    var d := 0;
    while d < 4
      invariant 0 <= d <= 4
      invariant Consistent(grid, v, start, s', closed, rank)
      invariant Enclosure(grid, closed, s'.open, {c})
      invariant EnclosedUpTo(grid, c, closed + Positions(s'.open), d)
      invariant ExpandedUpTo(grid, v, closed, c, s, s', d)
    {
      s' := Look(grid, v, start, c, s, s', closed, rank, d);
      d := d + 1;
    }
    forall x | x in closed ensures Enclosed(grid, x, closed + Positions(s'.open)) {
      if x != c {
        assert Enclosed(grid, x, closed + Positions(s'.open));
      }
    }
  }

  /** After expanding `c`, every open, unclosed neighbour of `c` costs at
      most Robot3's tentative cost through `c`, and exactly that, with `c`
      as its back pointer, when this improved on its earlier cost. */
  lemma ExpandedBound(grid: Grid, v: Visits, closed: set<Pos>, c: Pos, s: Frontier, s': Frontier, nb: Pos)
    requires ExpandedUpTo(grid, v, closed, c, s, s', 4)
    requires Adjacent(c, nb) && IsOpen(grid, nb) && nb !in closed
    ensures nb in s'.g && s'.g[nb] <= s.g[c] + StepCost(VisitsAt(v, nb))
    ensures Improves(s, nb, s.g[c] + StepCost(VisitsAt(v, nb))) <==>
              s'.g[nb] == s.g[c] + StepCost(VisitsAt(v, nb)) && nb in s'.cameFrom && s'.cameFrom[nb] == c
                && (nb in s.g ==> s'.g[nb] < s.g[nb])
  {
    AdjacentIsShift(c, nb);
    var e :| 0 <= e < 4 && nb == Shift(c, UpDownLeftRight[e]);
    assert RelaxedAt(s, s', c, nb, s.g[c] + StepCost(VisitsAt(v, nb)));
  }

  /** `route` is a chain of back pointers read forwards: the back pointer of
      each cell is the cell before it, and that of the first cell is `start`. */
  ghost predicate FollowsLinks(cameFrom: map<Pos, Pos>, start: Pos, route: seq<Pos>) {
    && (|route| > 0 ==> route[0] in cameFrom && cameFrom[route[0]] == start)
    && forall i :: 0 < i < |route| ==> route[i] in cameFrom && cameFrom[route[i]] == route[i - 1]
  }

  /** `route` is the back-pointer path from `start` to `c`, start excluded,
      with every cell before `c` closed. */
  ghost predicate TracedTo(cameFrom: map<Pos, Pos>, start: Pos, c: Pos, closed: set<Pos>, route: seq<Pos>) {
    && (route == [] <==> c == start)
    && (|route| > 0 ==> Last(route) == c)
    && (forall i :: 0 <= i < |route| - 1 ==> route[i] in closed)
    && FollowsLinks(cameFrom, start, route)
  }

  /** A chain from a start without a back pointer is one cell long exactly
      when its last cell points straight back to the start. */
  lemma LinksLength(cameFrom: map<Pos, Pos>, start: Pos, r: seq<Pos>)
    requires start !in cameFrom
    requires FollowsLinks(cameFrom, start, r) && |r| > 0
    ensures Last(r) in cameFrom
    ensures |r| == 1 <==> cameFrom[Last(r)] == start
  {
    if |r| > 1 {
      assert r[|r| - 1] in cameFrom && cameFrom[r[|r| - 1]] == r[|r| - 2];
      assert r[|r| - 2] in cameFrom;
    }
  }

  /** Back pointers fix the path: when the start has no back pointer, two
      nonempty chains from the start that end on the same cell are equal. */
  lemma {:induction false} LinksFixRoute(cameFrom: map<Pos, Pos>, start: Pos, r1: seq<Pos>, r2: seq<Pos>)
    requires start !in cameFrom
    requires FollowsLinks(cameFrom, start, r1) && FollowsLinks(cameFrom, start, r2)
    requires |r1| > 0 && |r2| > 0 && Last(r1) == Last(r2)
    ensures r1 == r2
    decreases |r1|
  {
    var a := Last(r1);
    LinksLength(cameFrom, start, r1);
    LinksLength(cameFrom, start, r2);
    if cameFrom[a] == start {
      assert r1 == [a] && r2 == [a];
    } else {
      var p1, p2 := r1[..|r1| - 1], r2[..|r2| - 1];
      assert r1[|r1| - 1] == a && r2[|r2| - 1] == a;
      assert Last(p1) == cameFrom[a] == Last(p2);
      LinksPrefix(cameFrom, start, r1);
      LinksPrefix(cameFrom, start, r2);
      LinksFixRoute(cameFrom, start, p1, p2);
      assert r1 == p1 + [a] && r2 == p2 + [a];
    }
  }

  lemma LinksPrefix(cameFrom: map<Pos, Pos>, start: Pos, r: seq<Pos>)
    requires FollowsLinks(cameFrom, start, r) && |r| > 0
    ensures FollowsLinks(cameFrom, start, r[..|r| - 1])
  {
    var p := r[..|r| - 1];
    forall i | 0 < i < |p| ensures p[i] in cameFrom && cameFrom[p[i]] == p[i - 1] {
      assert p[i] == r[i] && p[i - 1] == r[i - 1];
    }
  }

  /** Prepending a cell to a chain moves the chain's start to its back
      pointer. */
  lemma LinksPrepend(cameFrom: map<Pos, Pos>, cur: Pos, route: seq<Pos>)
    requires cur in cameFrom && FollowsLinks(cameFrom, cur, route)
    ensures FollowsLinks(cameFrom, cameFrom[cur], [cur] + route)
  {
    var r := [cur] + route;
    forall i | 0 < i < |r| ensures r[i] in cameFrom && cameFrom[r[i]] == r[i - 1] {
      assert r[i] == route[i - 1];
      if i > 1 {
        assert r[i - 1] == route[i - 2];
      }
    }
  }

  /** The route a search reports for `c` is the only back-pointer path to
      it: whatever set of closed cells it is checked against, it is the same
      sequence. */
  lemma TracedIsUnique(cameFrom: map<Pos, Pos>, start: Pos, c: Pos,
                       closed1: set<Pos>, r1: seq<Pos>, closed2: set<Pos>, r2: seq<Pos>)
    requires start !in cameFrom
    requires TracedTo(cameFrom, start, c, closed1, r1) && TracedTo(cameFrom, start, c, closed2, r2)
    ensures r1 == r2
  {
    if c != start {
      LinksFixRoute(cameFrom, start, r1, r2);
    }
  }

  /** Follows the back pointers from `target` to the start, collecting the
      cells stepped on, start excluded. Every cell before `target` is closed. */
  method Reconstruct(cameFrom: map<Pos, Pos>, target: Pos,
                     ghost grid: Grid, ghost v: Visits, ghost start: Pos, ghost s: Frontier,
                     ghost closed: set<Pos>, ghost rank: map<Pos, nat>) returns (route: seq<Pos>)
    requires Consistent(grid, v, start, s, closed, rank) && cameFrom == s.cameFrom
    requires target !in closed && Rooted(start, cameFrom, target)
    ensures IsRoute(grid, start, route)
    ensures route == [] <==> target == start
    ensures |route| > 0 ==> Last(route) == target
    ensures forall i :: 0 <= i < |route| - 1 ==> route[i] in closed
    ensures FollowsLinks(cameFrom, start, route)
  {
    route := [];
    var cur := target;
    assert IsRoute(grid, cur, route) by {
      assert [cur] + route == [cur];
    }
    while cur in cameFrom
      invariant Rooted(start, cameFrom, cur)
      invariant cur == target || cur in closed
      invariant route == [] ==> cur == target
      invariant |route| > 0 ==> Last(route) == target && cur in closed
      invariant IsRoute(grid, cur, route)
      invariant forall i :: 0 <= i < |route| - 1 ==> route[i] in closed
      invariant FollowsLinks(cameFrom, cur, route)
      decreases if cur in closed then rank[cur] else |closed|
    {
      var prev := cameFrom[cur];
      RoutePrepend(grid, prev, cur, route);
      LinksPrepend(cameFrom, cur, route);
      assert Rooted(start, cameFrom, prev);
      route := [cur] + route;
      cur := prev;
    }
  }

  /** Enclosed closed cells contain every walk from a closed start. */
  lemma {:induction false} WalkStaysClosed(grid: Grid, start: Pos, w: seq<Pos>, closed: set<Pos>)
    requires IsWalkFrom(grid, start, w) && start in closed
    requires forall x {:trigger Enclosed(grid, x, closed + Positions([]))} :: x in closed ==> Enclosed(grid, x, closed + Positions([]))
    ensures Last(w) in closed
  {
    assert Positions([]) == {};
    if |w| > 1 {
      var w' := w[..|w| - 1];
      assert IsWalkFrom(grid, start, w') by {
        forall i, j | 0 <= i < j < |w'| && j == i + 1
          ensures Adjacent(w'[i], w'[j]) && IsOpen(grid, w'[j])
        {
          assert w'[i] == w[i] && w'[j] == w[j];
        }
      }
      WalkStaysClosed(grid, start, w', closed);
      var p := Last(w');
      var q := Last(w);
      assert p == w[|w| - 2];
      assert Adjacent(p, q) && IsOpen(grid, q);
      AdjacentIsShift(p, q);
      assert Enclosed(grid, p, closed + Positions([]));
    }
  }

  /** `findPathToNearestUnvisited` of Robot3. It returns the back-pointer
      path, start excluded, to the first popped cell with count 0, or `[]`
      when the open set runs dry. `pops` counts the removals from the open
      set; no cell is popped twice, so there are at most as many as cells.
      The route is a walk through open neighbours whose only unvisited cell
      is its last, and (from a visited start) it is empty exactly when no
      unvisited cell can be reached. A nonempty route is the one the last pop
      reports: `last`, `lastClosed` and `lastRank` are the search state
      before that pop (`Reports`). */
  method FindPath(grid: Grid, v: Visits, start: Pos)
    returns (route: seq<Pos>, pops: nat, ghost last: Frontier, ghost lastClosed: set<Pos>, ghost lastRank: map<Pos, nat>)
    requires WellFormed(grid) && Shaped(grid, v) && InBounds(|grid|, start)
    ensures IsRoute(grid, start, route)
    ensures |route| > 0 ==> VisitsAt(v, start) != 0 && VisitsAt(v, Last(route)) == 0
    ensures forall i :: 0 <= i < |route| - 1 ==> VisitsAt(v, route[i]) != 0
    ensures VisitsAt(v, start) == 0 ==> route == []
    ensures VisitsAt(v, start) != 0 ==> (route == [] <==> !UnvisitedReachable(grid, v, start))
    ensures pops <= |grid| * |grid|
    ensures |route| > 0 ==> Reports(grid, v, start, last, lastClosed, lastRank, route)
  {
    var n := |grid|;
    var s := Frontier([OpenEntry(start, 10 * ToOrigin(start))], map[], map[start := 0]);
    var closed: set<Pos> := {};
    ghost var rank: map<Pos, nat> := map[];
    pops := 0;
    last, lastClosed, lastRank := s, closed, rank;
    InitialSearching(grid, v, start);
    while |s.open| > 0
      invariant Searching(grid, v, start, s, closed, rank)
      invariant pops == |closed|
      decreases AllCells(n) - closed
    {
      var found: bool;
      last, lastClosed, lastRank := s, closed, rank;
      found, route, s, closed, rank := Pop(grid, v, start, s, closed, rank);
      pops := pops + 1;
      if found {
        CellCount(n, closed);
        return;
      }
      CellCount(n, closed);
    }
    NothingLeft(grid, v, start, s, closed, rank);
    CellCount(n, closed);
    route := [];
  }

  /** One iteration of the search loop: pop the entry with the least
      f-score; if its cell is unvisited, report the route to it, otherwise
      close the cell and look at its neighbours. Either way the popped cell
      joins `closed'`, which only the next iteration reads. */
  method Pop(grid: Grid, v: Visits, start: Pos, s: Frontier, closed: set<Pos>, ghost rank: map<Pos, nat>)
    returns (found: bool, route: seq<Pos>, s': Frontier, closed': set<Pos>, ghost rank': map<Pos, nat>)
    requires WellFormed(grid) && |s.open| > 0
    requires Searching(grid, v, start, s, closed, rank)
    ensures exists c :: c !in closed && InBounds(|grid|, c) && closed' == closed + {c}
    ensures |closed'| == |closed| + 1 && forall x :: x in closed' ==> InBounds(|grid|, x)
    ensures found ==> RouteOk(grid, v, start, route)
    ensures found ==> Reports(grid, v, start, s, closed, rank, route)
    ensures !found ==> Searching(grid, v, start, s', closed', rank')
    ensures found <==> VisitsAt(v, SortBy(s.open, ByF)[0].pos) == 0
    ensures !found ==> ExpandedUpTo(grid, v, closed', SortBy(s.open, ByF)[0].pos,
                                    s.(open := SortBy(s.open, ByF)[1..]), s', 4)
  {
    PopKeepsConsistent(grid, v, start, s, closed, rank);
    var sorted := SortBy(s.open, ByF);
    var c := sorted[0].pos;
    s' := s.(open := sorted[1..]);
    closed' := closed + {c};
    assert |closed'| == |closed| + 1 && forall x :: x in closed' ==> InBounds(|grid|, x);
    rank' := rank[c := |closed|];
    if VisitsAt(v, c) == 0 {
      found := true;
      route := RouteTo(grid, v, start, s, closed, rank, c);
      return;
    }
    found := false;
    route := [];
    s' := Expand(grid, v, start, c, s', closed', rank');
  }

  /** The path to the popped unvisited cell `c`, read off the back
      pointers. */
  method RouteTo(grid: Grid, v: Visits, start: Pos, s: Frontier, closed: set<Pos>, ghost rank: map<Pos, nat>, c: Pos)
    returns (route: seq<Pos>)
    requires Consistent(grid, v, start, s, closed, rank)
    requires VisitsAt(v, c) == 0 && c !in closed && Rooted(start, s.cameFrom, c) && (closed == {} ==> c == start)
    ensures RouteOk(grid, v, start, route)
    ensures TracedTo(s.cameFrom, start, c, closed, route)
  {
    route := Reconstruct(s.cameFrom, c, grid, v, start, s, closed, rank);
    FoundRoute(grid, v, start, c, route, s, closed, rank);
  }

  /** A pop from the search state `s` reports `route`: the entry popped,
      the one with the least priority (`PopIsLeast`), is an unvisited cell,
      and `route` is the back-pointer path to it (unique by
      `TracedIsUnique`). */
  ghost predicate Reports(grid: Grid, v: Visits, start: Pos, s: Frontier, closed: set<Pos>, rank: map<Pos, nat>, route: seq<Pos>) {
    && |s.open| > 0
    && Searching(grid, v, start, s, closed, rank)
    && VisitsAt(v, SortBy(s.open, ByF)[0].pos) == 0
    && TracedTo(s.cameFrom, start, SortBy(s.open, ByF)[0].pos, closed, route)
  }

  /** A search state reports at most one route: the back pointers fix it. */
  lemma ReportsOneRoute(grid: Grid, v: Visits, start: Pos, s: Frontier, closed: set<Pos>, rank: map<Pos, nat>,
                        r1: seq<Pos>, r2: seq<Pos>)
    requires Reports(grid, v, start, s, closed, rank, r1) && Reports(grid, v, start, s, closed, rank, r2)
    ensures r1 == r2
  {
    TracedIsUnique(s.cameFrom, start, SortBy(s.open, ByF)[0].pos, closed, r1, closed, r2);
  }

  /** `route` is what some pop of the search reports. */
  ghost predicate PopReports(grid: Grid, v: Visits, start: Pos, route: seq<Pos>) {
    exists s: Frontier, closed: set<Pos>, rank: map<Pos, nat> :: Reports(grid, v, start, s, closed, rank, route)
  }

  /** Between two pops: the search facts, every closed cell enclosed, and
      every closed cell on the board. */
  ghost predicate Searching(grid: Grid, v: Visits, start: Pos, s: Frontier, closed: set<Pos>, rank: map<Pos, nat>) {
    && Consistent(grid, v, start, s, closed, rank)
    && Enclosure(grid, closed, s.open, {})
    && forall x :: x in closed ==> InBounds(|grid|, x)
  }

  /** The open set holding only the start, at cost 0, is where the search
      begins. */
  lemma InitialSearching(grid: Grid, v: Visits, start: Pos)
    requires InBounds(|grid|, start)
    ensures Searching(grid, v, start, Frontier([OpenEntry(start, 10 * ToOrigin(start))], map[], map[start := 0]), {}, map[])
  {
    var s := Frontier([OpenEntry(start, 10 * ToOrigin(start))], map[], map[start := 0]);
    assert Positions(s.open) == {start} by {
      assert s.open[0].pos == start;
    }
  }

  /** What `FindPath` promises of its route: a walk through open neighbours
      whose only unvisited cell is its last, and (from a visited start) empty
      exactly when no unvisited cell can be reached. */
  ghost predicate RouteOk(grid: Grid, v: Visits, start: Pos, route: seq<Pos>) {
    && IsRoute(grid, start, route)
    && (|route| > 0 ==> VisitsAt(v, start) != 0 && VisitsAt(v, Last(route)) == 0)
    && (forall i :: 0 <= i < |route| - 1 ==> VisitsAt(v, route[i]) != 0)
    && (VisitsAt(v, start) == 0 ==> route == [])
    && (VisitsAt(v, start) != 0 ==> (route == [] <==> !UnvisitedReachable(grid, v, start)))
  }

  /** The route to the popped unvisited cell `c` has every promised property. */
  lemma FoundRoute(grid: Grid, v: Visits, start: Pos, c: Pos, route: seq<Pos>,
                    s: Frontier, closed: set<Pos>, rank: map<Pos, nat>)
    requires Consistent(grid, v, start, s, closed, rank)
    requires VisitsAt(v, c) == 0 && c !in closed && (closed == {} ==> c == start)
    requires IsRoute(grid, start, route)
    requires route == [] <==> c == start
    requires |route| > 0 ==> Last(route) == c
    requires forall i :: 0 <= i < |route| - 1 ==> route[i] in closed
    ensures RouteOk(grid, v, start, route)
  {
    if |route| > 0 {
      var w := [start] + route;
      assert Last(w) == c;
      assert IsWalkFrom(grid, start, w);
    }
  }

  /** With the open set empty, every cell reachable from the start is closed,
      hence visited. */
  lemma NothingLeft(grid: Grid, v: Visits, start: Pos, s: Frontier, closed: set<Pos>, rank: map<Pos, nat>)
    requires Consistent(grid, v, start, s, closed, rank) && s.open == []
    requires Enclosure(grid, closed, s.open, {})
    ensures !UnvisitedReachable(grid, v, start)
  {
    assert Positions(s.open) == {};
    assert start in closed;
    forall w | IsWalkFrom(grid, start, w) ensures VisitsAt(v, Last(w)) != 0 {
      WalkStaysClosed(grid, start, w, closed);
    }
  }
}

=== FILE: bfs.dfy ===
/** Robot2 (BFS): every turn it searches breadth-first from where it stands
    for the nearest cell it has never stood on, and takes only the first
    step of the path it finds. */
module Bfs {
  import opened Seqs
  import opened GridModel
  import opened VisitMap

  /** A queue entry: a cell and the path that reached it, start included. */
  datatype Entry = Entry(pos: Pos, path: seq<Pos>)

  function EntryPos(e: Entry): Pos {
    e.pos
  }

  /** The queued cells. */
  ghost function Positions(queue: seq<Entry>): set<Pos> {
    CellsOf(queue, EntryPos)
  }

  /** A queued entry carries a walk from the start to its cell whose length
      is the cell's level, and every cell of that walk before its end has a
      nonzero count (it was dequeued without ending the search). */
  ghost predicate EntryOk(grid: Grid, v: Visits, start: Pos, level: map<Pos, nat>, e: Entry) {
    && IsWalkFrom(grid, start, e.path)
    && Last(e.path) == e.pos
    && e.pos in level && level[e.pos] == |e.path| - 1
    && forall i :: 0 <= i < |e.path| - 1 ==> VisitsAt(v, e.path[i]) != 0
  }

  /** Every open neighbour of an expanded cell has been reached, at a level at
      most one more than the cell's. */
  ghost predicate Closed(grid: Grid, q: Pos, level: map<Pos, nat>) {
    && q in level
    && forall d :: 0 <= d < 4 && IsOpen(grid, Shift(q, UpDownLeftRight[d]))
         ==> Shift(q, UpDownLeftRight[d]) in level
             && level[Shift(q, UpDownLeftRight[d])] <= level[q] + 1
  }

  lemma ClosedGrows(grid: Grid, q: Pos, level: map<Pos, nat>, level': map<Pos, nat>)
    requires Closed(grid, q, level)
    requires forall k :: k in level ==> k in level' && level'[k] == level[k]
    ensures Closed(grid, q, level')
  {
  }

  /** The key fact of breadth-first search: when every cell reached but not
      yet expanded has level at least `bound`, the end of any walk of at most
      `bound` steps has been reached, at a level no larger than the walk's
      length. */
  lemma {:induction false} WalkEndsReached(grid: Grid, start: Pos, w: seq<Pos>,
                                           expanded: set<Pos>, level: map<Pos, nat>, bound: int)
    requires IsWalkFrom(grid, start, w)
    requires start in level && level[start] == 0
    requires forall q :: q in level && q !in expanded ==> level[q] >= bound
    requires forall q :: q in expanded ==> Closed(grid, q, level)
    requires |w| - 1 <= bound
    ensures Last(w) in level && level[Last(w)] <= |w| - 1
  {
    if |w| > 1 {
      var w' := w[..|w| - 1];
      assert IsWalkFrom(grid, start, w') by {
        forall i, j | 0 <= i < j < |w'| && j == i + 1
          ensures Adjacent(w'[i], w'[j]) && IsOpen(grid, w'[j])
        {
          assert w'[i] == w[i] && w'[j] == w[j];
        }
      }
      WalkEndsReached(grid, start, w', expanded, level, bound);
      var p := Last(w');
      var q := Last(w);
      assert p == w[|w| - 2];
      assert Adjacent(p, q) && IsOpen(grid, q);
      assert p in expanded;
      AdjacentIsShift(p, q);
      var d :| 0 <= d < 4 && q == Shift(p, UpDownLeftRight[d]);
      assert Closed(grid, p, level);
    }
  }

  /** With the queue ordered by level, every reached cell that is not
      expanded has level at least that of the queue's front. */
  lemma FrontIsLowest(queue: seq<Entry>, expanded: set<Pos>, level: map<Pos, nat>,
                      grid: Grid, v: Visits, start: Pos)
    requires |queue| > 0
    requires level.Keys == expanded + Positions(queue)
    requires forall k :: 0 <= k < |queue| ==> EntryOk(grid, v, start, level, queue[k])
    requires forall a, b :: 0 <= a < b < |queue| ==> |queue[a].path| <= |queue[b].path|
    requires forall k :: 0 <= k < |queue| ==> queue[k].pos !in expanded
    ensures forall q :: q in level && q !in expanded ==> level[q] >= |queue[0].path| - 1
  {
    forall q | q in level && q !in expanded ensures level[q] >= |queue[0].path| - 1 {
      var k :| 0 <= k < |queue| && queue[k].pos == q;
      assert EntryOk(grid, v, start, level, queue[k]);
      if k > 0 {
        assert |queue[0].path| <= |queue[k].path|;
      }
    }
  }

  /** The facts kept about the queue: no expanded cell in it, no cell twice,
      every entry well formed, levels ascending and within one of `depth`. */
  ghost predicate QueueOk(grid: Grid, v: Visits, start: Pos, queue: seq<Entry>,
                          expanded: set<Pos>, level: map<Pos, nat>, depth: nat) {
    && (forall k :: 0 <= k < |queue| ==> queue[k].pos !in expanded)
    && (forall a, b :: 0 <= a < b < |queue| ==> queue[a].pos != queue[b].pos)
    && (forall k :: 0 <= k < |queue| ==> EntryOk(grid, v, start, level, queue[k]))
    && (forall a, b :: 0 <= a < b < |queue| ==> |queue[a].path| <= |queue[b].path|)
    && (forall k :: 0 <= k < |queue| ==> depth + 1 <= |queue[k].path| <= depth + 2)
  }

  /** The facts kept about expanded cells: visited (else the search would
      have stopped there), at a level no deeper than `depth`, and closed. */
  ghost predicate ExpandedOk(grid: Grid, v: Visits, expanded: set<Pos>, level: map<Pos, nat>, depth: nat) {
    && (forall q :: q in expanded ==> q in level && level[q] <= depth && VisitsAt(v, q) != 0)
    // Matched on `Closed` only: neighbours of closed cells are reached, and
    // matching on membership would close those neighbours again, and so on.
    && (forall q {:trigger Closed(grid, q, level)} :: q in expanded ==> Closed(grid, q, level))
  }

  /** The state of the search between two dequeues: the marked cells are
      exactly the reached ones, which are the expanded cells and the queued
      ones, all in bounds. */
  ghost predicate Searching(grid: Grid, v: Visits, start: Pos, queue: seq<Entry>, visited: set<Pos>,
                            expanded: set<Pos>, level: map<Pos, nat>, depth: nat) {
    && visited == level.Keys == expanded + Positions(queue)
    && (forall q :: q in visited ==> InBounds(|grid|, q))
    && start in level && level[start] == 0
    && QueueOk(grid, v, start, queue, expanded, level, depth)
    && ExpandedOk(grid, v, expanded, level, depth)
  }

  /** The state while the visited cell of entry `e` is being expanded: as in
      `Searching`, with `e`'s cell reached, neither expanded nor queued. */
  ghost predicate Expanding(grid: Grid, v: Visits, start: Pos, e: Entry, queue: seq<Entry>, visited: set<Pos>,
                            expanded: set<Pos>, level: map<Pos, nat>, depth: nat) {
    && visited == level.Keys == expanded + {e.pos} + Positions(queue)
    && e.pos !in expanded && e.pos !in Positions(queue)
    && (forall q :: q in visited ==> InBounds(|grid|, q))
    && start in level && level[start] == 0
    && EntryOk(grid, v, start, level, e) && |e.path| - 1 == depth && VisitsAt(v, e.pos) != 0
    && QueueOk(grid, v, start, queue, expanded, level, depth)
    && ExpandedOk(grid, v, expanded, level, depth)
  }

  /** The first `d` directions around `c` have been looked at. */
  ghost predicate ClosedUpTo(grid: Grid, c: Pos, level: map<Pos, nat>, d: int, depth: nat) {
    forall d' :: 0 <= d' < d <= 4 && IsOpen(grid, Shift(c, UpDownLeftRight[d']))
      ==> Shift(c, UpDownLeftRight[d']) in level && level[Shift(c, UpDownLeftRight[d'])] <= depth + 1
  }

  /** One step further from a dequeued, visited cell gives a well-formed
      entry one level deeper. */
  lemma ExtendEntry(grid: Grid, v: Visits, start: Pos, level: map<Pos, nat>, e: Entry, nb: Pos)
    requires EntryOk(grid, v, start, level, e) && VisitsAt(v, e.pos) != 0
    requires Adjacent(e.pos, nb) && IsOpen(grid, nb)
    ensures EntryOk(grid, v, start, level[nb := |e.path|], Entry(nb, e.path + [nb]))
  {
    var path := e.path + [nb];
    WalkExtend(grid, start, e.path, nb);
    forall i | 0 <= i < |path| - 1 ensures VisitsAt(v, path[i]) != 0 {
      if i < |e.path| - 1 {
        assert path[i] == e.path[i];
      } else {
        assert path[i] == e.pos;
      }
    }
  }

  /** Entries and closed cells stay as they are when a new cell gets a level. */
  lemma LevelGrows(grid: Grid, v: Visits, start: Pos, queue: seq<Entry>, expanded: set<Pos>,
                   level: map<Pos, nat>, depth: nat, nb: Pos, l: nat)
    requires nb !in level
    requires forall k :: 0 <= k < |queue| ==> EntryOk(grid, v, start, level, queue[k])
    requires ExpandedOk(grid, v, expanded, level, depth)
    ensures forall k :: 0 <= k < |queue| ==> EntryOk(grid, v, start, level[nb := l], queue[k])
    ensures ExpandedOk(grid, v, expanded, level[nb := l], depth)
  {
    var level' := level[nb := l];
    forall k | 0 <= k < |queue| ensures EntryOk(grid, v, start, level', queue[k]) {
      assert EntryOk(grid, v, start, level, queue[k]);
    }
    forall q | q in expanded ensures Closed(grid, q, level') {
      ClosedGrows(grid, q, level, level');
    }
  }

  lemma NotQueued(queue: seq<Entry>, nb: Pos)
    requires nb !in Positions(queue)
    ensures forall k :: 0 <= k < |queue| ==> queue[k].pos != nb
  {
    forall k | 0 <= k < |queue| ensures queue[k].pos != nb {
      assert EntryPos(queue[k]) in Positions(queue);
    }
  }

  /** Queueing a newly reached neighbour `nb` of the cell being expanded
      keeps every queue fact. */
  lemma PushKeepsQueueOk(grid: Grid, v: Visits, start: Pos, queue: seq<Entry>, expanded: set<Pos>,
                         level: map<Pos, nat>, depth: nat, e: Entry, nb: Pos)
    requires QueueOk(grid, v, start, queue, expanded, level, depth)
    requires ExpandedOk(grid, v, expanded, level, depth)
    requires EntryOk(grid, v, start, level, e) && |e.path| - 1 == depth && VisitsAt(v, e.pos) != 0
    requires Adjacent(e.pos, nb) && IsOpen(grid, nb) && nb !in level
    requires level.Keys == expanded + {e.pos} + Positions(queue)
    ensures QueueOk(grid, v, start, queue + [Entry(nb, e.path + [nb])], expanded,
                    level[nb := depth + 1], depth)
    ensures ExpandedOk(grid, v, expanded, level[nb := depth + 1], depth)
  {
    var level' := level[nb := depth + 1];
    var entry := Entry(nb, e.path + [nb]);
    var q' := queue + [entry];
    ExtendEntry(grid, v, start, level, e, nb);
    LevelGrows(grid, v, start, queue, expanded, level, depth, nb, depth + 1);
    NotQueued(queue, nb);
    forall k | 0 <= k < |q'|
      ensures q'[k].pos !in expanded && EntryOk(grid, v, start, level', q'[k])
      ensures depth + 1 <= |q'[k].path| <= depth + 2
    {
      if k < |queue| {
        assert q'[k] == queue[k];
      }
    }
    PushKeepsOrder(queue, entry);
  }

  /** Appending an entry for a new cell whose path is at least as long as
      every queued one keeps the cells distinct and the paths ascending. */
  lemma PushKeepsOrder(queue: seq<Entry>, entry: Entry)
    requires forall a, b :: 0 <= a < b < |queue| ==> queue[a].pos != queue[b].pos && |queue[a].path| <= |queue[b].path|
    requires forall k :: 0 <= k < |queue| ==> queue[k].pos != entry.pos && |queue[k].path| <= |entry.path|
    ensures var q' := queue + [entry];
      forall a, b :: 0 <= a < b < |q'| ==> q'[a].pos != q'[b].pos && |q'[a].path| <= |q'[b].path|
  {
    var q' := queue + [entry];
    forall a, b | 0 <= a < b < |q'| ensures q'[a].pos != q'[b].pos && |q'[a].path| <= |q'[b].path| {
      assert q'[a] == queue[a];
      if b < |queue| {
        assert q'[b] == queue[b];
      }
    }
  }

  /** Marking and queueing an open, unmarked neighbour `nb` keeps the
      expansion state and only adds `nb`, one level below the cell. */
  lemma PushKeepsExpanding(grid: Grid, v: Visits, start: Pos, e: Entry, queue: seq<Entry>, visited: set<Pos>,
                           expanded: set<Pos>, level: map<Pos, nat>, depth: nat, nb: Pos)
    requires WellFormed(grid)
    requires Expanding(grid, v, start, e, queue, visited, expanded, level, depth)
    requires Adjacent(e.pos, nb) && IsOpen(grid, nb) && nb !in visited
    ensures Expanding(grid, v, start, e, queue + [Entry(nb, e.path + [nb])], visited + {nb},
                      expanded, level[nb := depth + 1], depth)
  {
    PushKeepsQueueOk(grid, v, start, queue, expanded, level, depth, e, nb);
    CellsOfAppend(queue, Entry(nb, e.path + [nb]), EntryPos);
    assert EntryOk(grid, v, start, level[nb := depth + 1], e);
  }

  /** With all four directions looked at, the cell is closed and joins the
      expanded cells. */
  lemma FinishExpanding(grid: Grid, v: Visits, start: Pos, e: Entry, queue: seq<Entry>, visited: set<Pos>,
                        expanded: set<Pos>, level: map<Pos, nat>, depth: nat)
    requires Expanding(grid, v, start, e, queue, visited, expanded, level, depth)
    requires ClosedUpTo(grid, e.pos, level, 4, depth)
    ensures Searching(grid, v, start, queue, visited, expanded + {e.pos}, level, depth)
  {
    forall k | 0 <= k < |queue| ensures queue[k].pos != e.pos {
      assert queue[k].pos in Positions(queue);
    }
    assert Closed(grid, e.pos, level);
  }

  /** Looking at direction `d` extends `ClosedUpTo` by one, provided no
      level changed and the neighbour in direction `d`, if open, is reached. */
  lemma ClosedUpToStep(grid: Grid, c: Pos, level: map<Pos, nat>, level': map<Pos, nat>, d: int, depth: nat)
    requires 0 <= d < 4 && ClosedUpTo(grid, c, level, d, depth)
    requires forall k :: k in level ==> k in level' && level'[k] == level[k]
    requires IsOpen(grid, Shift(c, UpDownLeftRight[d]))
             ==> Shift(c, UpDownLeftRight[d]) in level' && level'[Shift(c, UpDownLeftRight[d])] <= depth + 1
    ensures ClosedUpTo(grid, c, level', d + 1, depth)
  {
  }

  /** While a cell at `depth` is expanded, no reached cell is deeper than
      `depth + 1`. */
  lemma ReachedWithinOne(grid: Grid, v: Visits, start: Pos, e: Entry, queue: seq<Entry>, visited: set<Pos>,
                         expanded: set<Pos>, level: map<Pos, nat>, depth: nat)
    requires Expanding(grid, v, start, e, queue, visited, expanded, level, depth)
    ensures forall q :: q in level ==> level[q] <= depth + 1
  {
    forall q | q in level ensures level[q] <= depth + 1 {
      if q in Positions(queue) {
        var k :| 0 <= k < |queue| && queue[k].pos == q;
        assert EntryOk(grid, v, start, level, queue[k]);
      }
    }
  }

  /** What expanding `e` adds: new entries at the back of the queue, for
      open neighbours of `e`'s cell that were not marked, each with `e`'s
      path extended by it, and exactly their cells newly marked. */
  ghost predicate Extends(grid: Grid, e: Entry, queue: seq<Entry>, visited: set<Pos>,
                          queue': seq<Entry>, visited': set<Pos>) {
    && |queue| <= |queue'| && queue'[..|queue|] == queue
    && (forall k :: |queue| <= k < |queue'| ==>
          && queue'[k].pos !in visited && Adjacent(e.pos, queue'[k].pos) && IsOpen(grid, queue'[k].pos)
          && queue'[k].path == e.path + [queue'[k].pos])
    && visited' == visited + Positions(queue'[|queue|..])
  }

  lemma ExtendsPush(grid: Grid, e: Entry, queue: seq<Entry>, visited: set<Pos>,
                    queue': seq<Entry>, visited': set<Pos>, nb: Pos)
    requires Extends(grid, e, queue, visited, queue', visited')
    requires nb !in visited' && Adjacent(e.pos, nb) && IsOpen(grid, nb)
    ensures Extends(grid, e, queue, visited, queue' + [Entry(nb, e.path + [nb])], visited' + {nb})
  {
    var q2 := queue' + [Entry(nb, e.path + [nb])];
    assert q2[|queue|..] == queue'[|queue|..] + [Entry(nb, e.path + [nb])];
    CellsOfAppend(queue'[|queue|..], Entry(nb, e.path + [nb]), EntryPos);
    assert q2[..|queue|] == queue;
  }

  /** Looking at the neighbour of `e`'s cell in direction `d`: when it is
      open and not yet marked, it is marked and queued with its path. */
  method Look(grid: Grid, v: Visits, start: Pos, e: Entry, queue: seq<Entry>, visited: set<Pos>,
              ghost expanded: set<Pos>, ghost level: map<Pos, nat>, ghost depth: nat,
              queue0: seq<Entry>, visited0: set<Pos>, d: int)
    returns (queue': seq<Entry>, visited': set<Pos>, ghost level': map<Pos, nat>)
    requires WellFormed(grid) && 0 <= d < 4
    requires Expanding(grid, v, start, e, queue, visited, expanded, level, depth)
    requires ClosedUpTo(grid, e.pos, level, d, depth)
    requires Extends(grid, e, queue0, visited0, queue, visited)
    ensures Expanding(grid, v, start, e, queue', visited', expanded, level', depth)
    ensures ClosedUpTo(grid, e.pos, level', d + 1, depth)
    ensures Extends(grid, e, queue0, visited0, queue', visited')
  {
    queue', visited', level' := queue, visited, level;
    var nb := Shift(e.pos, UpDownLeftRight[d]);
    if IsOpen(grid, nb) && nb !in visited {
      ShiftIsAdjacent(e.pos, d);
      PushKeepsExpanding(grid, v, start, e, queue, visited, expanded, level, depth, nb);
      ExtendsPush(grid, e, queue0, visited0, queue, visited, nb);
      visited' := visited + {nb};
      level' := level[nb := depth + 1];
      queue' := queue + [Entry(nb, e.path + [nb])];
    }
    ReachedWithinOne(grid, v, start, e, queue', visited', expanded, level', depth);
    ClosedUpToStep(grid, e.pos, level, level', d, depth);
  }

  /** The neighbour loop of one dequeued cell: each open, not yet marked
      neighbour, in up, down, left, right order, is marked and queued with
      its path. Afterwards the cell counts as expanded, and every open
      neighbour of it is marked. */
  method Expand(grid: Grid, v: Visits, start: Pos, e: Entry, queue: seq<Entry>, visited: set<Pos>,
                ghost expanded: set<Pos>, ghost level: map<Pos, nat>, ghost depth: nat)
    returns (queue': seq<Entry>, visited': set<Pos>, ghost level': map<Pos, nat>)
    requires WellFormed(grid)
    requires Expanding(grid, v, start, e, queue, visited, expanded, level, depth)
    ensures Searching(grid, v, start, queue', visited', expanded + {e.pos}, level', depth)
    ensures Extends(grid, e, queue, visited, queue', visited')
    ensures forall d :: 0 <= d < 4 && IsOpen(grid, Shift(e.pos, UpDownLeftRight[d])) ==> Shift(e.pos, UpDownLeftRight[d]) in visited'
  {
    queue', visited', level' := queue, visited, level;
    assert queue'[|queue|..] == [];
    var d := 0;
    while d < 4
      invariant 0 <= d <= 4
      invariant Expanding(grid, v, start, e, queue', visited', expanded, level', depth)
      invariant ClosedUpTo(grid, e.pos, level', d, depth)
      invariant Extends(grid, e, queue, visited, queue', visited')
    {
      queue', visited', level' := Look(grid, v, start, e, queue', visited', expanded, level', depth, queue, visited, d);
      d := d + 1;
    }
    FinishExpanding(grid, v, start, e, queue', visited', expanded, level', depth);
  }

  /** No walk shorter than the front entry's path ends on an unvisited cell:
      every cell it could end on has already been expanded. */
  lemma FrontIsNearest(grid: Grid, v: Visits, start: Pos, queue: seq<Entry>, visited: set<Pos>,
                       expanded: set<Pos>, level: map<Pos, nat>, depth: nat)
    requires |queue| > 0
    requires Searching(grid, v, start, queue, visited, expanded, level, depth)
    ensures forall w :: IsWalkFrom(grid, start, w) && |w| < |queue[0].path| ==> VisitsAt(v, Last(w)) != 0
  {
    FrontIsLowest(queue, expanded, level, grid, v, start);
    forall w | IsWalkFrom(grid, start, w) && |w| < |queue[0].path|
      ensures VisitsAt(v, Last(w)) != 0
    {
      WalkEndsReached(grid, start, w, expanded, level, |queue[0].path| - 1);
    }
  }

  /** Taking the front entry off the queue: it is well formed, in bounds and
      not yet expanded, and, when its cell is visited, expansion can begin at
      its depth. */
  lemma PopKeepsSearching(grid: Grid, v: Visits, start: Pos, queue: seq<Entry>, visited: set<Pos>,
                          expanded: set<Pos>, level: map<Pos, nat>, depth: nat)
    requires |queue| > 0
    requires Searching(grid, v, start, queue, visited, expanded, level, depth)
    ensures EntryOk(grid, v, start, level, queue[0])
    ensures queue[0].pos !in expanded && InBounds(|grid|, queue[0].pos)
    ensures VisitsAt(v, queue[0].pos) != 0
            ==> Expanding(grid, v, start, queue[0], queue[1..], visited, expanded, level, |queue[0].path| - 1)
  {
    var front := |queue[0].path| - 1;
    CellsOfTail(queue, EntryPos);
    PopKeepsQueueOk(grid, v, start, queue, expanded, level, depth);
    ExpandedDeeper(grid, v, expanded, level, depth, front);
    assert queue[0].pos in visited;
  }

  /** The queue without its front entry, against the front entry's depth. */
  lemma PopKeepsQueueOk(grid: Grid, v: Visits, start: Pos, queue: seq<Entry>,
                        expanded: set<Pos>, level: map<Pos, nat>, depth: nat)
    requires |queue| > 0 && QueueOk(grid, v, start, queue, expanded, level, depth)
    ensures |queue[0].path| >= 1 && depth <= |queue[0].path| - 1
    ensures queue[0].pos !in Positions(queue[1..])
    ensures QueueOk(grid, v, start, queue[1..], expanded, level, |queue[0].path| - 1)
  {
    var front := |queue[0].path| - 1;
    var rest := queue[1..];
    forall q | q in Positions(rest) ensures q != queue[0].pos {
      var k :| 0 <= k < |rest| && rest[k].pos == q;
      assert queue[k + 1].pos == q;
    }
    forall k | 0 <= k < |rest| ensures EntryOk(grid, v, start, level, rest[k]) && front + 1 <= |rest[k].path| {
      assert rest[k] == queue[k + 1];
    }
  }

  /** The facts about expanded cells still hold against a deeper level. */
  lemma ExpandedDeeper(grid: Grid, v: Visits, expanded: set<Pos>, level: map<Pos, nat>, depth: nat, deeper: nat)
    requires ExpandedOk(grid, v, expanded, level, depth) && depth <= deeper
    ensures ExpandedOk(grid, v, expanded, level, deeper)
  {
  }

  /** Once the queue is empty, every cell any walk reaches has a nonzero count. */
  lemma ExhaustedSearch(grid: Grid, v: Visits, start: Pos, visited: set<Pos>, expanded: set<Pos>,
                        level: map<Pos, nat>, depth: nat)
    requires Searching(grid, v, start, [], visited, expanded, level, depth)
    ensures !UnvisitedReachable(grid, v, start)
  {
    assert Positions([]) == {};
    forall w | IsWalkFrom(grid, start, w)
      ensures VisitsAt(v, Last(w)) != 0
    {
      WalkEndsReached(grid, start, w, expanded, level, |w| - 1);
    }
  }

  /** A walk to an unvisited cell through visited cells, with no shorter walk
      to an unvisited cell, yields a route with every promised property. */
  lemma FoundRoute(grid: Grid, v: Visits, start: Pos, path: seq<Pos>, route: seq<Pos>)
    requires IsWalkFrom(grid, start, path) && VisitsAt(v, Last(path)) == 0
    requires forall i :: 0 <= i < |path| - 1 ==> VisitsAt(v, path[i]) != 0
    requires forall w :: IsWalkFrom(grid, start, w) && |w| < |path| ==> VisitsAt(v, Last(w)) != 0
    requires route == path[1..]
    ensures IsRoute(grid, start, route)
    ensures |route| > 0 ==> VisitsAt(v, start) != 0 && VisitsAt(v, Last(route)) == 0
    ensures forall i :: 0 <= i < |route| - 1 ==> VisitsAt(v, route[i]) != 0
    ensures forall w :: IsWalkFrom(grid, start, w) && VisitsAt(v, Last(w)) == 0 && |route| > 0
                        ==> |route| <= |w| - 1
    ensures VisitsAt(v, start) == 0 ==> route == []
    ensures VisitsAt(v, start) != 0 ==> (route == [] <==> !UnvisitedReachable(grid, v, start))
  {
    assert [start] + route == path;
    if |route| > 0 {
      assert path[0] == start;
      forall i | 0 <= i < |route| - 1 ensures VisitsAt(v, route[i]) != 0 {
        assert route[i] == path[i + 1];
      }
    }
  }

  /** The queue holding only the start, marked at level 0, is where the
      search begins. */
  lemma InitialSearching(grid: Grid, v: Visits, start: Pos)
    requires InBounds(|grid|, start)
    ensures Searching(grid, v, start, [Entry(start, [start])], {start}, {}, map[start := 0], 0)
  {
    var queue := [Entry(start, [start])];
    assert Positions(queue) == {start} by {
      assert queue[0].pos == start;
      assert start in Positions(queue);
    }
    assert EntryOk(grid, v, start, map[start := 0], queue[0]);
  }

  /** `route`, start excluded, leads from `start` through open neighbours to
      a cell with count 0 in as few steps as any walk can. */
  ghost predicate NearestRoute(grid: Grid, v: Visits, start: Pos, route: seq<Pos>) {
    && IsRoute(grid, start, route) && |route| > 0 && VisitsAt(v, Last(route)) == 0
    && forall w :: IsWalkFrom(grid, start, w) && VisitsAt(v, Last(w)) == 0 ==> |route| <= |w| - 1
  }

  /** `findPathToNearestUnvisited` of Robot2: breadth-first search from
      `start` over open cells, expanding up, down, left, right and marking a
      cell when it is queued; it returns the path to the first dequeued cell
      whose count is 0, without the start cell, or `[]` when the queue runs
      dry. `dequeues` counts the queue removals, as a measure of the work.
      The route is a walk through open neighbours; only its last cell is
      unvisited; no unvisited cell is fewer steps away; and (from a visited
      start) the route is empty exactly when no unvisited cell is reachable. */
  method FindPath(grid: Grid, v: Visits, start: Pos) returns (route: seq<Pos>, dequeues: nat)
    requires WellFormed(grid) && Shaped(grid, v) && InBounds(|grid|, start)
    ensures IsRoute(grid, start, route)
    ensures |route| > 0 ==> VisitsAt(v, start) != 0 && VisitsAt(v, Last(route)) == 0
    ensures forall i :: 0 <= i < |route| - 1 ==> VisitsAt(v, route[i]) != 0
    ensures forall w :: IsWalkFrom(grid, start, w) && VisitsAt(v, Last(w)) == 0 && |route| > 0
                        ==> |route| <= |w| - 1
    ensures VisitsAt(v, start) == 0 ==> route == []
    ensures VisitsAt(v, start) != 0 ==> (route == [] <==> !UnvisitedReachable(grid, v, start))
    ensures dequeues <= |grid| * |grid|
  {
    var n := |grid|;
    var queue := [Entry(start, [start])];
    var visited := {start};
    ghost var expanded: set<Pos> := {};
    ghost var level: map<Pos, nat> := map[start := 0];
    ghost var depth: nat := 0;
    dequeues := 0;
    InitialSearching(grid, v, start);
    while |queue| > 0
      invariant Searching(grid, v, start, queue, visited, expanded, level, depth)
      invariant dequeues == |expanded| <= n * n
      decreases AllCells(n) - expanded
    {
      FrontIsNearest(grid, v, start, queue, visited, expanded, level, depth);
      PopKeepsSearching(grid, v, start, queue, visited, expanded, level, depth);
      var e := queue[0];
      queue := queue[1..];
      dequeues := dequeues + 1;
      CellCount(n, expanded + {e.pos});
      assert |expanded + {e.pos}| == dequeues;
      if VisitsAt(v, e.pos) == 0 {
        route := e.path[1..];
        FoundRoute(grid, v, start, e.path, route);
        return;
      }
      depth := |e.path| - 1;
      queue, visited, level := Expand(grid, v, start, e, queue, visited, expanded, level, depth);
      expanded := expanded + {e.pos};
    }
    ExhaustedSearch(grid, v, start, visited, expanded, level, depth);
    route := [];
  }
}

=== FILE: dfs.dfy ===
/** Robot4 (depth-first): from the robot's cell it searches for a chain of
    open cells ending at an unvisited one, trying the neighbours of each cell
    in right, down, left, up order, least visited first. The set of cells it
    may not step on is local to the branch: each call adds its own cell, and
    every child gets its own copy, so the siblings tried before do not block
    a later branch. */
module Dfs {
  import opened Seqs
  import opened StableSort
  import opened GridModel
  import opened VisitMap

  /** `getNeighbors`: the open in-bounds neighbours in right, down, left, up
      order. */
  function Neighbors(grid: Grid, p: Pos): (r: seq<Pos>)
    ensures forall q :: q in r <==> Adjacent(p, q) && IsOpen(grid, q)
    ensures Distinct(r)
    ensures forall d, e :: 0 <= d < e < 4 && IsOpen(grid, Shift(p, RightDownLeftUp[d]))
                           && IsOpen(grid, Shift(p, RightDownLeftUp[e]))
                           ==> ListedBefore(r, Shift(p, RightDownLeftUp[d]), Shift(p, RightDownLeftUp[e]))
  {
    var r := OpenAround(grid, p, RightDownLeftUp);
    forall q ensures q in r <==> Adjacent(p, q) && IsOpen(grid, q) {
      AroundIsAdjacent(p, q);
    }
    AroundIsDistinct(p);
    FilterDistinct(Around(p, RightDownLeftUp), OpenIn(grid));
    forall d, e | 0 <= d < e < 4 && IsOpen(grid, Shift(p, RightDownLeftUp[d])) && IsOpen(grid, Shift(p, RightDownLeftUp[e]))
      ensures ListedBefore(r, Shift(p, RightDownLeftUp[d]), Shift(p, RightDownLeftUp[e]))
    {
      FilterKeepsListedBefore(Around(p, RightDownLeftUp), OpenIn(grid), d, e);
    }
    r
  }

  /** The neighbours not on the branch, least visited first, equal counts in
      `getNeighbors` order. */
  function Candidates(grid: Grid, v: Visits, p: Pos, branch: set<Pos>): seq<Pos> {
    SortBy(Filter(Neighbors(grid, p), q => q !in branch), CountKey(v))
  }

  /** The candidates are exactly the open neighbours off the branch, each
      once, in ascending count, and with equal counts in the order
      `getNeighbors` lists them. */
  lemma CandidatesAre(grid: Grid, v: Visits, p: Pos, branch: set<Pos>)
    requires WellFormed(grid)
    ensures forall q :: q in Candidates(grid, v, p, branch) <==> Adjacent(p, q) && IsOpen(grid, q) && q !in branch
    ensures Tryable(grid, p, Candidates(grid, v, p, branch), branch)
    ensures Distinct(Candidates(grid, v, p, branch))
    ensures SortedBy(Candidates(grid, v, p, branch), CountKey(v))
    ensures forall c :: WithKey(Candidates(grid, v, p, branch), CountKey(v), c)
                        == WithKey(Filter(Neighbors(grid, p), q => q !in branch), CountKey(v), c)
  {
    var f := Filter(Neighbors(grid, p), q => q !in branch);
    SortByPermutes(f, CountKey(v));
    forall c ensures WithKey(SortBy(f, CountKey(v)), CountKey(v), c) == WithKey(f, CountKey(v), c) {
      SortByIsStable(f, CountKey(v), c);
    }
    AroundIsDistinct(p);
    FilterDistinct(Around(p, RightDownLeftUp), OpenIn(grid));
    FilterDistinct(Neighbors(grid, p), q => q !in branch);
    PermutationDistinct(f, SortBy(f, CountKey(v)));
  }

  /** Rearranging a sequence without repeats leaves none. */
  lemma PermutationDistinct<T>(a: seq<T>, b: seq<T>)
    requires Distinct(a) && multiset(a) == multiset(b)
    ensures Distinct(b)
  {
    forall i, j | 0 <= i < j < |b| ensures b[i] != b[j] {
      if b[i] == b[j] {
        assert multiset(b)[b[i]] >= 2 by {
          assert b == b[..i] + [b[i]] + b[i + 1..j] + [b[j]] + b[j + 1..];
        }
        DistinctCount(a, b[i]);
      }
    }
  }

  lemma {:induction false} DistinctCount<T>(a: seq<T>, x: T)
    requires Distinct(a)
    ensures multiset(a)[x] <= 1
  {
    if |a| > 0 {
      assert a == [a[0]] + a[1..];
      DistinctCount(a[1..], x);
      if a[0] == x {
        assert x !in a[1..];
      }
    }
  }

  /** No cell of `w` lies in `branch`. */
  ghost predicate Avoids(w: seq<Pos>, branch: set<Pos>) {
    forall i :: 0 <= i < |w| ==> w[i] !in branch
  }

  /** A chain that `findNextMove` may return from `start`: a walk without
      repeats off the branch whose last cell alone has count 0. */
  ghost predicate IsFind(grid: Grid, v: Visits, start: Pos, branch: set<Pos>, path: seq<Pos>) {
    && IsWalkFrom(grid, start, path)
    && Distinct(path)
    && Avoids(path, branch)
    && VisitsAt(v, Last(path)) == 0
    && forall i :: 0 <= i < |path| - 1 ==> VisitsAt(v, path[i]) != 0
  }

  /** `findNextMove`: `[start]` when `start` has count 0; otherwise the
      first candidate whose own search succeeds, with `start` in front; or
      `None` when every candidate fails. The branch grows by `start` on
      every call, so the depth of the recursion is bounded by the number of
      cells. */
  function FindNextMove(grid: Grid, v: Visits, start: Pos, branch: set<Pos>): (r: Option<seq<Pos>>)
    requires WellFormed(grid) && InBounds(|grid|, start) && start !in branch
    ensures r.Some? ==> IsFind(grid, v, start, branch, r.value)
    decreases AllCells(|grid|) - branch, 0
  {
    if VisitsAt(v, start) == 0 then
      Some([start])
    else
      var branch' := branch + {start};
      CandidatesAre(grid, v, start, branch');
      TryEach(grid, v, start, Candidates(grid, v, start, branch'), branch')
  }

  /** Every candidate is an open neighbour of `from` off the branch. */
  ghost predicate Tryable(grid: Grid, from: Pos, cands: seq<Pos>, branch: set<Pos>) {
    forall k :: 0 <= k < |cands| ==>
      Adjacent(from, cands[k]) && IsOpen(grid, cands[k]) && InBounds(|grid|, cands[k]) && cands[k] !in branch
  }

  /** The loop over the candidates of `from`: the first one whose search
      succeeds wins, and its result gets `from` in front (`SuccessIndex`
      names that candidate); when every candidate's search fails, so does
      the loop (`TryEachFails`). */
  function TryEach(grid: Grid, v: Visits, from: Pos, cands: seq<Pos>, branch: set<Pos>): (r: Option<seq<Pos>>)
    requires WellFormed(grid) && from in branch && VisitsAt(v, from) != 0 && Tryable(grid, from, cands, branch)
    ensures r.Some? ==> IsFind(grid, v, from, branch - {from}, r.value) && |r.value| >= 2
    decreases AllCells(|grid|) - branch, |cands|
  {
    if |cands| == 0 then None
    else
      match FindNextMove(grid, v, cands[0], branch)
      case Some(path) =>
        PrependFind(grid, v, from, branch, path);
        Some([from] + path)
      case None => TryEach(grid, v, from, cands[1..], branch)
  }

  /** The loop fails exactly when every candidate's own search fails. */
  lemma {:induction false} TryEachFails(grid: Grid, v: Visits, from: Pos, cands: seq<Pos>, branch: set<Pos>)
    requires WellFormed(grid) && from in branch && VisitsAt(v, from) != 0 && Tryable(grid, from, cands, branch)
    ensures TryEach(grid, v, from, cands, branch).None? <==>
              forall i :: 0 <= i < |cands| ==> FindNextMove(grid, v, cands[i], branch).None?
    decreases |cands|
  {
    if |cands| > 0 {
      var tail := cands[1..];
      TryEachFails(grid, v, from, tail, branch);
      assert forall j :: 1 <= j < |cands| ==> cands[j] == tail[j - 1];
    }
  }

  /** The index of the candidate through which a successful loop succeeds:
      its own search succeeds, the loop's result is that search's with
      `from` in front, and every candidate before it failed. */
  ghost function SuccessIndex(grid: Grid, v: Visits, from: Pos, cands: seq<Pos>, branch: set<Pos>): (i: nat)
    requires WellFormed(grid) && from in branch && VisitsAt(v, from) != 0 && Tryable(grid, from, cands, branch)
    requires TryEach(grid, v, from, cands, branch).Some?
    ensures i < |cands| && FindNextMove(grid, v, cands[i], branch).Some?
    ensures TryEach(grid, v, from, cands, branch) == Some([from] + FindNextMove(grid, v, cands[i], branch).value)
    ensures forall j :: 0 <= j < i ==> FindNextMove(grid, v, cands[j], branch).None?
    decreases |cands|
  {
    if FindNextMove(grid, v, cands[0], branch).Some? then 0
    else
      var i := SuccessIndex(grid, v, from, cands[1..], branch);
      assert forall j :: 1 <= j < i + 1 ==> cands[j] == cands[1..][j - 1];
      i + 1
  }

  /** A chain from a neighbour, off a branch holding `from`, becomes a chain
      from `from` by putting `from` in front. */
  lemma PrependFind(grid: Grid, v: Visits, from: Pos, branch: set<Pos>, path: seq<Pos>)
    requires from in branch && VisitsAt(v, from) != 0 && |path| > 0
    requires Adjacent(from, path[0]) && IsOpen(grid, path[0])
    requires IsFind(grid, v, path[0], branch, path)
    ensures IsFind(grid, v, from, branch - {from}, [from] + path)
  {
    var w := [from] + path;
    RoutePrepend(grid, from, path[0], path[1..]);
    assert [path[0]] + path[1..] == path;
    forall i, j | 0 <= i < j < |w| ensures w[i] != w[j] {
      if i > 0 {
        assert w[i] == path[i - 1];
      }
      assert w[j] == path[j - 1];
    }
    forall i | 0 <= i < |w| - 1 ensures VisitsAt(v, w[i]) != 0 {
      if i > 0 {
        assert w[i] == path[i - 1];
      }
    }
  }

  /** Candidates are tried in ascending visit count, equal counts in
      `getNeighbors` order: when the search from a visited `start` succeeds,
      its second cell is a candidate, and the search from every other
      candidate that has a smaller count, or the same count and comes earlier
      among the neighbours, failed. */
  lemma FewerVisitsTriedFirst(grid: Grid, v: Visits, start: Pos, branch: set<Pos>)
    requires WellFormed(grid) && InBounds(|grid|, start) && start !in branch
    requires VisitsAt(v, start) != 0 && FindNextMove(grid, v, start, branch).Some?
    ensures var path := FindNextMove(grid, v, start, branch).value;
      var cands := Candidates(grid, v, start, branch + {start});
      && Tryable(grid, start, cands, branch + {start})
      && |path| >= 2 && path[1] in cands
    ensures var path := FindNextMove(grid, v, start, branch).value;
      var cands := Candidates(grid, v, start, branch + {start});
      forall j :: 0 <= j < |cands| && cands[j] != path[1] && TriedBefore(grid, v, start, cands[j], path[1])
        ==> FindNextMove(grid, v, cands[j], branch + {start}).None?
  {
    var branch' := branch + {start};
    var cands := Candidates(grid, v, start, branch');
    var path := FindNextMove(grid, v, start, branch).value;
    CandidatesAre(grid, v, start, branch');
    var i := SuccessIndex(grid, v, start, cands, branch');
    assert path[1] == cands[i];
    forall j | 0 <= j < |cands| && cands[j] != path[1] && TriedBefore(grid, v, start, cands[j], path[1])
      ensures FindNextMove(grid, v, cands[j], branch').None?
    {
      EarlierFailed(grid, v, start, branch', i, j);
    }
  }

  /** A candidate tried before the `i`th, the first whose search succeeds,
      failed. */
  lemma EarlierFailed(grid: Grid, v: Visits, start: Pos, branch: set<Pos>, i: nat, j: nat)
    requires WellFormed(grid) && start in branch && VisitsAt(v, start) != 0
    requires Tryable(grid, start, Candidates(grid, v, start, branch), branch)
    requires i < |Candidates(grid, v, start, branch)|
    requires forall k :: 0 <= k < i ==> FindNextMove(grid, v, Candidates(grid, v, start, branch)[k], branch).None?
    requires j < |Candidates(grid, v, start, branch)| && j != i
    requires TriedBefore(grid, v, start, Candidates(grid, v, start, branch)[j], Candidates(grid, v, start, branch)[i])
    ensures FindNextMove(grid, v, Candidates(grid, v, start, branch)[j], branch).None?
  {
    var cands := Candidates(grid, v, start, branch);
    CandidatesAre(grid, v, start, branch);
    if j > i {
      assert CountKey(v)(cands[i]) <= CountKey(v)(cands[j]);
      SameKeyOrder(grid, v, start, branch, i, j);
    }
  }

  /** The source's order of trying two neighbours of `p`: `x` before `y` when
      it has a smaller count, or the same count and comes earlier in right,
      down, left, up order. */
  ghost predicate TriedBefore(grid: Grid, v: Visits, p: Pos, x: Pos, y: Pos) {
    || VisitsAt(v, x) < VisitsAt(v, y)
    || (VisitsAt(v, x) == VisitsAt(v, y) && ListedBefore(Neighbors(grid, p), x, y))
  }

  /** Two candidates with the same count come in `getNeighbors` order. */
  lemma SameKeyOrder(grid: Grid, v: Visits, p: Pos, branch: set<Pos>, i: int, j: int)
    requires WellFormed(grid)
    requires 0 <= i < j < |Candidates(grid, v, p, branch)|
    requires VisitsAt(v, Candidates(grid, v, p, branch)[i]) == VisitsAt(v, Candidates(grid, v, p, branch)[j])
    ensures !ListedBefore(Neighbors(grid, p), Candidates(grid, v, p, branch)[j], Candidates(grid, v, p, branch)[i])
  {
    var cands := Candidates(grid, v, p, branch);
    var f := Filter(Neighbors(grid, p), q => q !in branch);
    var c := VisitsAt(v, cands[i]);
    CandidatesAre(grid, v, p, branch);
    WithKeyKeepsOrder(cands, CountKey(v), c, i, j);
    WithKeyListedBefore(f, CountKey(v), c, cands[i], cands[j]);
    FilterListedBefore(Neighbors(grid, p), q => q !in branch, cands[i], cands[j]);
    AroundIsDistinct(p);
    FilterDistinct(Around(p, RightDownLeftUp), OpenIn(grid));
    ListedOneWay(Neighbors(grid, p), cands[i], cands[j]);
  }

  /** The last index at which `x` occurs in `w`. */
  function LastIndexOf(w: seq<Pos>, x: Pos): (k: nat)
    requires x in w
    ensures k < |w| && w[k] == x
    ensures forall j :: k < j < |w| ==> w[j] != x
  {
    if w[|w| - 1] == x then |w| - 1
    else
      assert x in w[..|w| - 1] by {
        var i :| 0 <= i < |w| && w[i] == x;
        assert w[..|w| - 1][i] == x;
      }
      LastIndexOf(w[..|w| - 1], x)
  }

  /** If a candidate's search succeeds, the loop over the candidates does. */
  lemma {:induction false} TryEachFinds(grid: Grid, v: Visits, from: Pos, cands: seq<Pos>, branch: set<Pos>, q: Pos)
    requires WellFormed(grid) && from in branch && VisitsAt(v, from) != 0 && Tryable(grid, from, cands, branch)
    requires q in cands && InBounds(|grid|, q) && FindNextMove(grid, v, q, branch).Some?
    ensures TryEach(grid, v, from, cands, branch).Some?
    decreases |cands|
  {
    if cands[0] != q && FindNextMove(grid, v, cands[0], branch).None? {
      TryEachFinds(grid, v, from, cands[1..], branch, q);
    }
  }

  /** Completeness: the search from `start` returns `None` only when no walk
      from `start` that keeps off the branch reaches a cell with count 0.
      With the other direction given by `FindNextMove`'s contract, the search
      fails exactly when no such walk exists. */
  lemma {:induction false} FindNextMoveComplete(grid: Grid, v: Visits, start: Pos, branch: set<Pos>, w: seq<Pos>)
    requires WellFormed(grid) && InBounds(|grid|, start) && start !in branch
    requires IsWalkFrom(grid, start, w) && Avoids(w, branch) && VisitsAt(v, Last(w)) == 0
    ensures FindNextMove(grid, v, start, branch).Some?
    decreases AllCells(|grid|) - branch
  {
    if VisitsAt(v, start) != 0 {
      var branch' := branch + {start};
      var k := LastIndexOf(w, start);
      assert k < |w| - 1;
      var u := w[k + 1..];
      WalkSuffix(grid, w, k + 1);
      assert Adjacent(w[k], w[k + 1]) && IsOpen(grid, w[k + 1]);
      assert u[0] == w[k + 1] && Last(u) == Last(w);
      assert Avoids(u, branch') by {
        forall i | 0 <= i < |u| ensures u[i] !in branch' {
          assert u[i] == w[k + 1 + i];
        }
      }
      CandidatesAre(grid, v, start, branch');
      FindNextMoveComplete(grid, v, u[0], branch', u);
      TryEachFinds(grid, v, start, Candidates(grid, v, start, branch'), branch', u[0]);
    }
  }

  /** The search from the robot's cell with an empty branch returns `None`
      exactly when no unvisited cell can be reached; a result starts at the
      robot's cell and is `[start]` alone exactly when that cell has count 0. */
  lemma FindFromRobot(grid: Grid, v: Visits, start: Pos)
    requires WellFormed(grid) && InBounds(|grid|, start)
    ensures FindNextMove(grid, v, start, {}).None? <==> !UnvisitedReachable(grid, v, start)
    ensures FindNextMove(grid, v, start, {}).Some? ==>
      (FindNextMove(grid, v, start, {}).value == [start] <==> VisitsAt(v, start) == 0)
  {
    var r := FindNextMove(grid, v, start, {});
    if UnvisitedReachable(grid, v, start) {
      var w :| IsWalkFrom(grid, start, w) && VisitsAt(v, Last(w)) == 0;
      FindNextMoveComplete(grid, v, start, {}, w);
    }
    if r.Some? && VisitsAt(v, start) != 0 {
      assert |r.value| >= 2;
    }
  }
}

=== FILE: greedy.dfy ===
/** Robot1 (greedy): each turn it steps to the least-visited open neighbour,
    looking at up, down, left, right in that order and keeping that order
    among equal counts. It never looks further than one cell. */
module Greedy {
  import opened Seqs
  import opened StableSort
  import opened GridModel
  import opened VisitMap

  /** The neighbour Robot1 moves to, or `None` when no neighbour is open (the
      robot is blocked). The choice is an open orthogonal neighbour, no open
      neighbour has a smaller count, and every open neighbour that comes
      earlier in up, down, left, right order has a strictly larger count. */
  function Choose(grid: Grid, v: Visits, p: Pos): (r: Option<Pos>)
    ensures r.None? <==> forall d :: 0 <= d < 4 ==> !IsOpen(grid, Shift(p, UpDownLeftRight[d]))
    ensures r.Some? ==> Adjacent(p, r.value) && IsOpen(grid, r.value)
    ensures r.Some? ==> forall d :: 0 <= d < 4 && IsOpen(grid, Shift(p, UpDownLeftRight[d]))
                          ==> VisitsAt(v, r.value) <= VisitsAt(v, Shift(p, UpDownLeftRight[d]))
    ensures r.Some? ==> forall d, e :: 0 <= e < d < 4 && Shift(p, UpDownLeftRight[d]) == r.value
                                      && IsOpen(grid, Shift(p, UpDownLeftRight[e]))
                          ==> VisitsAt(v, r.value) < VisitsAt(v, Shift(p, UpDownLeftRight[e]))
  {
    var around := Around(p, UpDownLeftRight);
    var candidates := OpenAround(grid, p, UpDownLeftRight);
    if |candidates| == 0 then
      assert forall d :: 0 <= d < 4 ==> around[d] !in candidates;
      None
    else
      FilteredSortHead(around, OpenIn(grid), CountKey(v));
      AroundIsDistinct(p);
      var q := SortBy(candidates, CountKey(v))[0];
      AroundIsAdjacent(p, q);
      Some(q)
  }
}

=== FILE: grid.dfy ===
/** The obstacle grid every robot reads: a square matrix in which `-1` marks
    an obstacle and `0` an open cell, indexed `grid[x][y]` by a position
    `[x, y]`. The grid never changes during a race. */
module GridModel {
  import opened Seqs

  /** A position `[x, y]`; `row` indexes the outer array. */
  datatype Pos = Pos(row: int, col: int)

  type Grid = seq<seq<int>>

  const OBSTACLE: int := -1
  const OPEN: int := 0
  const Origin: Pos := Pos(0, 0)

  /** What the grid generator guarantees: square, at least one cell, every
      cell open or an obstacle, and the start cell open. */
  ghost predicate WellFormed(grid: Grid) {
    && |grid| >= 1
    && (forall i :: 0 <= i < |grid| ==> |grid[i]| == |grid|)
    && (forall i, j :: 0 <= i < |grid| && 0 <= j < |grid[i]| ==> grid[i][j] == OPEN || grid[i][j] == OBSTACLE)
    && grid[0][0] == OPEN
  }

  predicate InBounds(n: int, p: Pos) {
    0 <= p.row < n && 0 <= p.col < n
  }

  /** In bounds and not `-1` (the source's `grid[x][y] !== -1`). */
  predicate IsOpen(grid: Grid, p: Pos) {
    0 <= p.row < |grid| && 0 <= p.col < |grid[p.row]| && grid[p.row][p.col] != OBSTACLE
  }

  /** In bounds and `-1`. */
  predicate IsObstacle(grid: Grid, p: Pos) {
    0 <= p.row < |grid| && 0 <= p.col < |grid[p.row]| && grid[p.row][p.col] == OBSTACLE
  }

  /** On a well-formed grid an open cell is on the board. */
  lemma OpenInBounds(grid: Grid, p: Pos)
    requires WellFormed(grid) && IsOpen(grid, p)
    ensures InBounds(|grid|, p)
  {
  }

  /** Direction vectors `[dx, dy]`. */
  type Dir = (int, int)

  /** Up, down, left, right: the order of Robot1, Robot2, Robot3 and of
      every blocked-cell report. */
  const UpDownLeftRight: seq<Dir> := [(-1, 0), (1, 0), (0, -1), (0, 1)]

  /** Right, down, left, up: the order of Robot4's `getNeighbors`. */
  const RightDownLeftUp: seq<Dir> := [(0, 1), (1, 0), (0, -1), (-1, 0)]

  function Shift(p: Pos, d: Dir): Pos {
    Pos(p.row + d.0, p.col + d.1)
  }

  /** The cells one step from `p` in each direction of `dirs`, in order. */
  function Around(p: Pos, dirs: seq<Dir>): (r: seq<Pos>)
    ensures |r| == |dirs|
    ensures forall k :: 0 <= k < |dirs| ==> r[k] == Shift(p, dirs[k])
  {
    seq(|dirs|, k requires 0 <= k < |dirs| => Shift(p, dirs[k]))
  }

  /** Orthogonal neighbours: one step up, down, left or right. */
  predicate Adjacent(p: Pos, q: Pos) {
    (p.row == q.row && (p.col - q.col == 1 || q.col - p.col == 1))
    || (p.col == q.col && (p.row - q.row == 1 || q.row - p.row == 1))
  }

  /** Both direction lists reach exactly the orthogonal neighbours. */
  lemma AroundIsAdjacent(p: Pos, q: Pos)
    ensures Adjacent(p, q) <==> q in Around(p, UpDownLeftRight)
    ensures Adjacent(p, q) <==> q in Around(p, RightDownLeftUp)
  {
    var a := Around(p, UpDownLeftRight);
    var b := Around(p, RightDownLeftUp);
    assert a == [Pos(p.row - 1, p.col), Pos(p.row + 1, p.col), Pos(p.row, p.col - 1), Pos(p.row, p.col + 1)];
    assert b == [Pos(p.row, p.col + 1), Pos(p.row + 1, p.col), Pos(p.row, p.col - 1), Pos(p.row - 1, p.col)];
  }

  lemma AroundIsDistinct(p: Pos)
    ensures Distinct(Around(p, UpDownLeftRight))
    ensures Distinct(Around(p, RightDownLeftUp))
  {
  }

  /** The in-bounds obstacles among the four neighbours, in up, down, left,
      right order: the `blockedCells` a robot records when it stops blocked. */
  function BlockedAround(grid: Grid, p: Pos): (r: seq<Pos>)
    ensures forall q :: q in r <==> Adjacent(p, q) && IsObstacle(grid, q)
    ensures Distinct(r)
    ensures forall d, e :: 0 <= d < e < 4 && IsObstacle(grid, Shift(p, UpDownLeftRight[d]))
                           && IsObstacle(grid, Shift(p, UpDownLeftRight[e]))
                           ==> ListedBefore(r, Shift(p, UpDownLeftRight[d]), Shift(p, UpDownLeftRight[e]))
  {
    var blocked := q => IsObstacle(grid, q);
    var r := Filter(Around(p, UpDownLeftRight), blocked);
    forall q ensures q in r <==> Adjacent(p, q) && IsObstacle(grid, q) {
      AroundIsAdjacent(p, q);
    }
    AroundIsDistinct(p);
    FilterDistinct(Around(p, UpDownLeftRight), blocked);
    forall d, e | 0 <= d < e < 4 && IsObstacle(grid, Shift(p, UpDownLeftRight[d])) && IsObstacle(grid, Shift(p, UpDownLeftRight[e]))
      ensures ListedBefore(r, Shift(p, UpDownLeftRight[d]), Shift(p, UpDownLeftRight[e]))
    {
      FilterKeepsListedBefore(Around(p, UpDownLeftRight), blocked, d, e);
    }
    r
  }

  /** `IsOpen` as a value, so that every filter by openness uses one term. */
  function OpenIn(grid: Grid): Pos -> bool {
    q => IsOpen(grid, q)
  }

  /** The open in-bounds neighbours of `p` in the order of `dirs`. */
  function OpenAround(grid: Grid, p: Pos, dirs: seq<Dir>): seq<Pos> {
    Filter(Around(p, dirs), OpenIn(grid))
  }

  /** A neighbour of `p` is `p` shifted by one of the four directions. */
  lemma AdjacentIsShift(p: Pos, q: Pos)
    requires Adjacent(p, q)
    ensures exists d :: 0 <= d < 4 && q == Shift(p, UpDownLeftRight[d])
    ensures exists d :: 0 <= d < 4 && q == Shift(p, RightDownLeftUp[d])
  {
    AroundIsAdjacent(p, q);
  }

  lemma ShiftIsAdjacent(p: Pos, d: int)
    requires 0 <= d < 4
    ensures Adjacent(p, Shift(p, UpDownLeftRight[d]))
    ensures Adjacent(p, Shift(p, RightDownLeftUp[d]))
  {
  }

  /** The cells a sequence of search entries stands on, each entry read
      with `at`: what both searches use to ask whether a cell is queued. */
  ghost function CellsOf<E>(s: seq<E>, at: E -> Pos): set<Pos> {
    set k | 0 <= k < |s| :: at(s[k])
  }

  lemma CellsOfAppend<E>(s: seq<E>, e: E, at: E -> Pos)
    ensures CellsOf(s + [e], at) == CellsOf(s, at) + {at(e)}
  {
    var s' := s + [e];
    forall q | q in CellsOf(s', at) ensures q in CellsOf(s, at) + {at(e)} {
      var k :| 0 <= k < |s'| && at(s'[k]) == q;
      if k < |s| {
        assert at(s[k]) == q;
      }
    }
    forall q | q in CellsOf(s, at) ensures q in CellsOf(s', at) {
      var k :| 0 <= k < |s| && at(s[k]) == q;
      assert at(s'[k]) == q;
    }
    assert at(s'[|s|]) == at(e);
  }

  lemma CellsOfTail<E>(s: seq<E>, at: E -> Pos)
    requires |s| > 0
    ensures CellsOf(s, at) == {at(s[0])} + CellsOf(s[1..], at)
  {
    forall q | q in CellsOf(s, at) ensures q in {at(s[0])} + CellsOf(s[1..], at) {
      var k :| 0 <= k < |s| && at(s[k]) == q;
      if k > 0 {
        assert at(s[1..][k - 1]) == q;
      }
    }
    forall q | q in CellsOf(s[1..], at) ensures q in CellsOf(s, at) {
      var k :| 0 <= k < |s[1..]| && at(s[1..][k]) == q;
      assert at(s[k + 1]) == q;
    }
  }

  /** A walk through the grid: consecutive cells are orthogonal neighbours,
      and every cell after the first is open. The first cell is where the
      robot stands. */
  ghost predicate IsWalk(grid: Grid, w: seq<Pos>) {
    && |w| >= 1
    && forall i, j :: 0 <= i < j < |w| && j == i + 1 ==> Adjacent(w[i], w[j]) && IsOpen(grid, w[j])
  }

  /** A walk from `start`; its number of steps (hops) is `|w| - 1`. */
  ghost predicate IsWalkFrom(grid: Grid, start: Pos, w: seq<Pos>) {
    IsWalk(grid, w) && w[0] == start
  }

  /** A walk extended by one step to an open neighbour of its end. */
  lemma WalkExtend(grid: Grid, start: Pos, w: seq<Pos>, q: Pos)
    requires IsWalkFrom(grid, start, w) && Adjacent(Last(w), q) && IsOpen(grid, q)
    ensures IsWalkFrom(grid, start, w + [q])
  {
    var w' := w + [q];
    forall i, j | 0 <= i < j < |w'| && j == i + 1
      ensures Adjacent(w'[i], w'[j]) && IsOpen(grid, w'[j])
    {
      if j < |w| {
        assert w'[i] == w[i] && w'[j] == w[j];
      }
    }
  }

  /** Every suffix of a walk is a walk. */
  lemma WalkSuffix(grid: Grid, w: seq<Pos>, k: int)
    requires IsWalk(grid, w) && 0 <= k < |w|
    ensures IsWalk(grid, w[k..])
  {
    var u := w[k..];
    forall i, j | 0 <= i < j < |u| && j == i + 1 ensures Adjacent(u[i], u[j]) && IsOpen(grid, u[j]) {
      assert u[i] == w[k + i] && u[j] == w[k + j];
    }
  }

  /** A route is what the path finders return: the cells to step on, in
      order, leaving out the start cell itself. */
  ghost predicate IsRoute(grid: Grid, start: Pos, r: seq<Pos>) {
    IsWalkFrom(grid, start, [start] + r)
  }

  /** Staying put is the empty route. */
  lemma EmptyRoute(grid: Grid, p: Pos)
    ensures IsRoute(grid, p, [])
  {
    assert [p] + [] == [p];
  }

  lemma RouteTail(grid: Grid, start: Pos, r: seq<Pos>)
    requires IsRoute(grid, start, r) && |r| > 0
    ensures Adjacent(start, r[0]) && IsOpen(grid, r[0])
    ensures IsRoute(grid, r[0], r[1..])
  {
    assert ([start] + r)[0] == start && ([start] + r)[1] == r[0];
    assert [r[0]] + r[1..] == ([start] + r)[1..];
  }

  /** A route from `q` becomes a route from a neighbour `p` of `q` by
      stepping on `q` first. */
  lemma RoutePrepend(grid: Grid, p: Pos, q: Pos, r: seq<Pos>)
    requires IsRoute(grid, q, r) && Adjacent(p, q) && IsOpen(grid, q)
    ensures IsRoute(grid, p, [q] + r)
  {
    var w := [q] + r;
    var w' := [p] + w;
    forall i, j | 0 <= i < j < |w'| && j == i + 1
      ensures Adjacent(w'[i], w'[j]) && IsOpen(grid, w'[j])
    {
      if i > 0 {
        assert w'[i] == w[i - 1] && w'[j] == w[j - 1];
      }
    }
  }

  /** Every cell of a grid of side `n`. */
  function AllCells(n: nat): (cells: set<Pos>)
    ensures forall p :: p in cells <==> InBounds(n, p)
  {
    set i, j | 0 <= i < n && 0 <= j < n :: Pos(i, j)
  }

  function RowCells(i: int, m: nat): set<Pos> {
    set j | 0 <= j < m :: Pos(i, j)
  }

  function RowsBelow(k: nat, n: nat): set<Pos> {
    set i, j | 0 <= i < k && 0 <= j < n :: Pos(i, j)
  }

  lemma {:induction false} RowCellsCount(i: int, m: nat)
    ensures |RowCells(i, m)| == m
  {
    if m > 0 {
      RowCellsCount(i, m - 1);
      assert RowCells(i, m) == RowCells(i, m - 1) + {Pos(i, m - 1)};
    } else {
      assert RowCells(i, m) == {};
    }
  }

  lemma RowsBelowSplit(k: nat, n: nat)
    requires k > 0
    ensures RowsBelow(k, n) == RowsBelow(k - 1, n) + RowCells(k - 1, n)
    ensures RowsBelow(k - 1, n) !! RowCells(k - 1, n)
  {
  }

  lemma {:induction false} RowsBelowCount(k: nat, n: nat)
    ensures |RowsBelow(k, n)| == k * n
  {
    if k > 0 {
      RowsBelowCount(k - 1, n);
      RowCellsCount(k - 1, n);
      RowsBelowSplit(k, n);
      assert k * n == (k - 1) * n + n;
    } else {
      assert RowsBelow(k, n) == {};
    }
  }

  /** A grid of side `n` has `n * n` cells, so any set of its cells, such as
      a search's visited set, has at most `n * n` members. */
  lemma CellCount(n: nat, cells: set<Pos>)
    requires forall p :: p in cells ==> InBounds(n, p)
    ensures |AllCells(n)| == n * n
    ensures |cells| <= n * n
  {
    RowsBelowCount(n, n);
    assert AllCells(n) == RowsBelow(n, n);
    var rest := AllCells(n) - cells;
    assert AllCells(n) == cells + rest;
    assert cells * rest == {};
  }

  /** Number of non-obstacle cells, the `totalCleanableCells` of a result. */
  function CleanableCount(grid: Grid): nat {
    |Filter(Flatten(grid), IsCleanableValue)|
  }

  predicate IsCleanableValue(c: int) {
    c != OBSTACLE
  }
}

=== FILE: race.dfy ===
/** The race page: clamping of the two numeric inputs, and the verdict
    computed once all four robots have reported. Robot names are opaque
    strings without commas. */
module Race {
  import opened Seqs
  import opened StableSort
  import opened RobotModels

  const MinGridSize: int := 4
  const MaxGridSize: int := 20
  const MinMaxMoves: int := 10
  const MaxMaxMoves: int := 1000

  /** `Math.max(lo, Math.min(hi, x))`. */
  function Clamp(x: int, lo: int, hi: int): (r: int)
    requires lo <= hi
    ensures lo <= r <= hi
    ensures lo <= x <= hi ==> r == x
    ensures x < lo ==> r == lo
    ensures x > hi ==> r == hi
  {
    if x < lo then lo else if x > hi then hi else x
  }

  /** The grid-size input: an integer entry clamped into [4, 20]. */
  function ClampGridSize(x: int): (r: int)
    ensures MinGridSize <= r <= MaxGridSize
    ensures MinGridSize <= x <= MaxGridSize ==> r == x
  {
    Clamp(x, MinGridSize, MaxGridSize)
  }

  /** The max-moves input: an integer entry clamped into [10, 1000]. */
  function ClampMaxMoves(x: int): (r: int)
    ensures MinMaxMoves <= r <= MaxMaxMoves
    ensures MinMaxMoves <= x <= MaxMaxMoves ==> r == x
  {
    Clamp(x, MinMaxMoves, MaxMaxMoves)
  }

  /** One robot of the race: its name and what it reported. */
  datatype Racer = Racer(name: string, result: RobotResult)

  predicate IsComplete(r: Racer) {
    r.result.isCleaningComplete
  }

  /** The sort key of the winner ranking; a result always has its moves, so
      the source's `|| 0` fallback changes nothing. */
  function MovesOf(r: Racer): int {
    r.result.moves
  }

  predicate HasMoved(r: Racer) {
    r.result.moves > 0
  }

  /** Robots whose run covered every open cell, in robot order. */
  function Completed(racers: seq<Racer>): seq<Racer> {
    Filter(racers, IsComplete)
  }

  /** The fewest moves among the completed robots: the first of them after
      sorting by moves. */
  function BestScore(racers: seq<Racer>): int
    requires |Completed(racers)| > 0
  {
    SortByPermutes(Completed(racers), MovesOf);
    SortBy(Completed(racers), MovesOf)[0].result.moves
  }

  function WithBest(best: int): Racer -> bool {
    (r: Racer) => r.result.moves == best
  }

  /** The completed robots sorted by moves, keeping those with the best
      score. */
  function Winners(racers: seq<Racer>): seq<Racer>
    requires |Completed(racers)| > 0
  {
    Filter(SortBy(Completed(racers), MovesOf), WithBest(BestScore(racers)))
  }

  /** `m` is the least number of moves among the completed robots. */
  ghost predicate IsBest(racers: seq<Racer>, m: int) {
    && (exists k :: 0 <= k < |racers| && IsComplete(racers[k]) && racers[k].result.moves == m)
    && (forall k :: 0 <= k < |racers| && IsComplete(racers[k]) ==> m <= racers[k].result.moves)
  }

  /** The completed robots that made `m` moves. */
  function CompletedWith(m: int): Racer -> bool {
    (r: Racer) => IsComplete(r) && r.result.moves == m
  }

  /** The best score is the least number of moves of any completed robot. */
  lemma BestScoreIsLeast(racers: seq<Racer>)
    requires |Completed(racers)| > 0
    ensures IsBest(racers, BestScore(racers))
  {
    FilteredSortHead(racers, IsComplete, MovesOf);
    var h := SortBy(Completed(racers), MovesOf)[0];
    var i :| 0 <= i < |racers| && racers[i] == h;
    assert IsComplete(racers[i]) && racers[i].result.moves == BestScore(racers);
  }

  /** There is a best score exactly when some robot completed, and it is
      unique. */
  lemma IsBestUnique(racers: seq<Racer>, m: int)
    requires IsBest(racers, m)
    ensures |Completed(racers)| > 0 && m == BestScore(racers)
  {
    var k :| 0 <= k < |racers| && IsComplete(racers[k]) && racers[k].result.moves == m;
    assert racers[k] in Completed(racers);
    BestScoreIsLeast(racers);
  }

  /** The winners are exactly the completed robots whose moves equal the
      best score, in robot order: sorting is stable, so sorting first and
      filtering after leaves robots with equal moves in their own order. */
  lemma WinnersAre(racers: seq<Racer>)
    requires |Completed(racers)| > 0
    ensures Winners(racers) == Filter(racers, CompletedWith(BestScore(racers)))
  {
    var c := Completed(racers);
    var best := BestScore(racers);
    FilterIsWithKey(SortBy(c, MovesOf), best);
    SortByIsStable(c, MovesOf, best);
    FilterIsWithKey(c, best);
    FilterTwice(racers, best);
  }

  /** Keeping the robots with `best` moves is `WithKey` by moves. */
  lemma {:induction false} FilterIsWithKey(s: seq<Racer>, best: int)
    ensures Filter(s, WithBest(best)) == WithKey(s, MovesOf, best)
  {
    if |s| > 0 {
      FilterIsWithKey(s[1..], best);
    }
  }

  /** Keeping the completed robots and then those with `m` moves keeps the
      completed robots with `m` moves. */
  lemma {:induction false} FilterTwice(s: seq<Racer>, m: int)
    ensures Filter(Completed(s), WithBest(m)) == Filter(s, CompletedWith(m))
  {
    if |s| > 0 {
      FilterTwice(s[1..], m);
      if IsComplete(s[0]) {
        assert Completed(s) == [s[0]] + Completed(s[1..]);
      }
    }
  }

  /** `names.join(", ")`. */
  function Join(names: seq<string>): string {
    if |names| == 0 then ""
    else if |names| == 1 then names[0]
    else Join(names[..|names| - 1]) + ", " + names[|names| - 1]
  }

  /** `lastIndexOf(',')`: the index of the last comma, or -1. */
  function LastComma(s: string): (k: int)
    ensures -1 <= k < |s|
    ensures k >= 0 ==> s[k] == ','
    ensures forall j :: k < j < |s| ==> s[j] != ','
  {
    if |s| == 0 then -1
    else if s[|s| - 1] == ',' then |s| - 1
    else LastComma(s[..|s| - 1])
  }

  /** The joined names with the last comma replaced by " and" (the space
      after the comma stays). */
  function JoinAnd(names: seq<string>): string {
    var joined := Join(names);
    var k := LastComma(joined);
    if k == -1 then joined else joined[..k] + " and" + joined[k + 1..]
  }

  predicate CommaFree(name: string) {
    forall i :: 0 <= i < |name| ==> name[i] != ','
  }

  lemma JoinCommaFree(names: seq<string>)
    requires |names| <= 1 && forall i :: 0 <= i < |names| ==> CommaFree(names[i])
    ensures CommaFree(Join(names))
  {
  }

  /** With comma-free names one name is shown as it is. */
  lemma JoinAndSingle(names: seq<string>)
    requires |names| <= 1 && forall i :: 0 <= i < |names| ==> CommaFree(names[i])
    ensures JoinAnd(names) == Join(names)
  {
    JoinCommaFree(names);
    NoCommaLast(Join(names));
  }

  /** With comma-free names several read "A, B and C": every separator but
      the last is ", ", the last " and ". */
  lemma JoinAndMany(names: seq<string>)
    requires |names| >= 2 && forall i :: 0 <= i < |names| ==> CommaFree(names[i])
    ensures JoinAnd(names) == Join(names[..|names| - 1]) + " and " + names[|names| - 1]
  {
    var head, last := Join(names[..|names| - 1]), names[|names| - 1];
    assert CommaFree(last);
    LastSeparator(head, last);
  }

  /** The last comma of `head + ", " + last` is the separator when `last`
      has none. */
  lemma LastSeparator(head: string, last: string)
    requires CommaFree(last)
    ensures var j := head + ", " + last;
      LastComma(j) == |head| && j[..|head|] == head && j[|head| + 1..] == " " + last
  {
    var j := head + ", " + last;
    var k := |head|;
    forall i | k < i < |j| ensures j[i] != ',' {
      if i > k + 1 {
        assert j[i] == last[i - k - 2];
      }
    }
    LastCommaIs(j, k);
    assert j[..k] == head;
    assert j[k + 1..] == " " + last;
  }

  lemma {:induction false} NoCommaLast(s: string)
    requires CommaFree(s)
    ensures LastComma(s) == -1
  {
    if |s| > 0 {
      NoCommaLast(s[..|s| - 1]);
    }
  }

  lemma {:induction false} LastCommaIs(s: string, k: int)
    requires 0 <= k < |s| && s[k] == ','
    requires forall j :: k < j < |s| ==> s[j] != ','
    ensures LastComma(s) == k
  {
    if k < |s| - 1 {
      LastCommaIs(s[..|s| - 1], k);
    }
  }

  function Names(racers: seq<Racer>): (r: seq<string>)
    ensures |r| == |racers| && forall i :: 0 <= i < |racers| ==> r[i] == racers[i].name
  {
    seq(|racers|, i requires 0 <= i < |racers| => racers[i].name)
  }

  /** Decimal digits of a natural number. */
  function NatToString(n: nat): (s: string)
    ensures |s| >= 1 && forall i :: 0 <= i < |s| ==> '0' <= s[i] <= '9'
    decreases n
  {
    var d := ['0' + (n % 10) as char];
    if n < 10 then d else NatToString(n / 10) + d
  }

  /** A number in a template literal: `-` and the digits of its magnitude
      when negative. */
  function IntToString(n: int): string {
    if n < 0 then "-" + NatToString(-n) else NatToString(n)
  }

  /** The value of a string of decimal digits. */
  function DigitsValue(s: string): int
    requires forall i :: 0 <= i < |s| ==> '0' <= s[i] <= '9'
  {
    if |s| == 0 then 0 else 10 * DigitsValue(s[..|s| - 1]) + (s[|s| - 1] - '0') as int
  }

  /** The digits read back as the number they spell. */
  lemma {:induction false} NatToStringValue(n: nat)
    ensures DigitsValue(NatToString(n)) == n
    decreases n
  {
    var s := NatToString(n);
    if n >= 10 {
      NatToStringValue(n / 10);
      assert s[..|s| - 1] == NatToString(n / 10);
    }
  }

  const Trophy: string := "\U{1F3C6}"

  predicate AllReported(results: seq<Option<RobotResult>>) {
    forall i :: 0 <= i < |results| ==> results[i].Some?
  }

  /** The four robots with their names and reported results. */
  function Racers(names: seq<string>, results: seq<Option<RobotResult>>): (r: seq<Racer>)
    requires |names| == |results| && AllReported(results)
    ensures |r| == |names|
    ensures forall i :: 0 <= i < |r| ==> r[i] == Racer(names[i], results[i].value)
  {
    seq(|names|, i requires 0 <= i < |names| => Racer(names[i], results[i].value))
  }

  /** The winner text of the race page, computed from the four robots'
      names and results. */
  function Verdict(names: seq<string>, results: seq<Option<RobotResult>>): (text: string)
    requires |names| == 4 && |results| == 4
    ensures text == "" <==> !AllReported(results)
  {
    if !AllReported(results) then ""
    else
      var racers := Racers(names, results);
      if |Completed(racers)| > 0 then
        var best := BestScore(racers);
        var winners := Winners(racers);
        if |winners| == 1 then
          winners[0].name + " wins with " + IntToString(best) + " moves! " + Trophy
        else
          "It's a tie between " + JoinAnd(Names(winners)) + " with " + IntToString(best) + " moves each! " + Trophy
      else
        var moved := Filter(racers, HasMoved);
        if |moved| > 0 then
          "No winner - " + JoinAnd(Names(moved)) + " did not visit all cells!"
        else
          "No winner - no robots made any moves!"
  }

  /** The names of robots picked out of the race are comma-free when all
      names are. */
  lemma PickedCommaFree(racers: seq<Racer>, picked: seq<Racer>)
    requires forall i :: 0 <= i < |racers| ==> CommaFree(racers[i].name)
    requires forall i :: 0 <= i < |picked| ==> picked[i] in racers
    ensures forall i :: 0 <= i < |picked| ==> CommaFree(Names(picked)[i])
  {
    forall i | 0 <= i < |picked| ensures CommaFree(Names(picked)[i]) {
      var j :| 0 <= j < |racers| && racers[j] == picked[i];
    }
  }

  /** How a list of names reads in the verdict: the name alone, or "A, B
      and C". */
  function Listing(names: seq<string>): string
    requires |names| >= 1
  {
    if |names| == 1 then names[0] else Join(names[..|names| - 1]) + " and " + names[|names| - 1]
  }

  lemma JoinAndIsListing(names: seq<string>)
    requires |names| >= 1 && forall i :: 0 <= i < |names| ==> CommaFree(names[i])
    ensures JoinAnd(names) == Listing(names)
  {
    if |names| == 1 {
      JoinAndSingle(names);
    } else {
      JoinAndMany(names);
    }
  }

  /** When some robot covered the grid and `m` is the least number of moves
      of such a robot, the verdict names, in robot order, every robot that
      covered the grid in `m` moves: alone it wins, otherwise they tie. */
  lemma VerdictWhenCompleted(names: seq<string>, results: seq<Option<RobotResult>>, m: int)
    requires |names| == 4 && |results| == 4 && AllReported(results)
    requires forall i :: 0 <= i < 4 ==> CommaFree(names[i])
    requires IsBest(Racers(names, results), m)
    ensures var w := Filter(Racers(names, results), CompletedWith(m));
      && |w| >= 1
      && (|w| == 1 ==> Verdict(names, results) == w[0].name + " wins with " + IntToString(m) + " moves! " + Trophy)
      && (|w| >= 2 ==> Verdict(names, results) == "It's a tie between " + Listing(Names(w)) + " with " + IntToString(m) + " moves each! " + Trophy)
  {
    var racers := Racers(names, results);
    IsBestUnique(racers, m);
    WinnersAre(racers);
    var w := Filter(racers, CompletedWith(m));
    var k :| 0 <= k < |racers| && IsComplete(racers[k]) && racers[k].result.moves == m;
    assert CompletedWith(m)(racers[k]);
    assert racers[k] in w;
    if |w| >= 2 {
      PickedCommaFree(racers, w);
      JoinAndIsListing(Names(w));
    }
  }

  /** When no robot covered the grid, the verdict lists, in robot order, the
      robots that moved at all, or says that none did. */
  lemma VerdictWhenNoneCompleted(names: seq<string>, results: seq<Option<RobotResult>>)
    requires |names| == 4 && |results| == 4 && AllReported(results)
    requires forall i :: 0 <= i < 4 ==> CommaFree(names[i])
    requires forall i :: 0 <= i < 4 ==> !results[i].value.isCleaningComplete
    ensures var moved := Filter(Racers(names, results), HasMoved);
      && (|moved| == 0 ==> Verdict(names, results) == "No winner - no robots made any moves!")
      && (|moved| >= 1 ==> Verdict(names, results) == "No winner - " + Listing(Names(moved)) + " did not visit all cells!")
  {
    var racers := Racers(names, results);
    NoneCompleted(racers);
    var moved := Filter(racers, HasMoved);
    if |moved| >= 1 {
      PickedCommaFree(racers, moved);
      JoinAndIsListing(Names(moved));
    }
  }

  lemma {:induction false} NoneCompleted(racers: seq<Racer>)
    requires forall i :: 0 <= i < |racers| ==> !IsComplete(racers[i])
    ensures Completed(racers) == []
  {
    if |racers| > 0 {
      NoneCompleted(racers[1..]);
    }
  }
}

=== FILE: robot_models.dfy ===
/** The record every robot reports when its run ends. */
module RobotModels {

  /** `RobotResult`: cells with a nonzero count, non-obstacle cells of the
      grid, whether every non-obstacle cell was stood on, and the number of
      steps taken. */
  datatype RobotResult = RobotResult(
    cellsVisited: int,
    totalCleanableCells: int,
    isCleaningComplete: bool,
    moves: int)
}

=== FILE: runner.dfy ===
/** The turn loop shared by the four robot components. A robot starts on
    `(0, 0)` with that cell counted once and `moves == 1`. Each turn it stops
    on the move budget, stops on full coverage, or asks its strategy what to
    do: take one step, store a planned route (Robot3 and Robot4, which then
    follow it one step per turn), or stop as blocked, recording the obstacles
    around it. When the run is over it reports a `RobotResult`. */
module Runner {
  import opened Seqs
  import opened GridModel
  import opened VisitMap
  import opened RobotModels
  import Greedy
  import Bfs
  import AStar
  import Dfs

  /** Robot1 to Robot4, in the order the race lists them. */
  datatype Strategy = LeastVisited | BreadthFirst | AStarSearch | DepthFirst

  /** What a robot component keeps between turns. `finished` is the
      source's `isCleaningComplete` flag, which ends the run whatever the
      reason; `plan` is the stored path of Robot3 and Robot4. */
  datatype RunState = RunState(
    pos: Pos,
    visits: Visits,
    moves: int,
    finished: bool,
    blocked: seq<Pos>,
    plan: seq<Pos>)

  function Max(a: int, b: int): int {
    if a >= b then a else b
  }

  /** The state after initialisation. */
  function Start(grid: Grid): (st: RunState)
    requires |grid| >= 1
    ensures st.pos == Origin && st.moves == 1 && !st.finished && st.blocked == [] && st.plan == []
    ensures forall p :: VisitsAt(st.visits, p) == (if p == Origin && InBounds(|grid|, p) then 1 else 0)
  {
    RunState(Origin, Initial(|grid|), 1, false, [], [])
  }

  /** What holds after every turn: the counts have the grid's shape, only
      open cells were stood on and the robot's own cell was, the counts add
      up to the move counter, which stays within the budget, the stored plan
      is a route from the robot, and obstacles are recorded only when the
      run is over, as those around the robot. */
  ghost predicate Valid(grid: Grid, maxMoves: int, st: RunState) {
    && Shaped(grid, st.visits)
    && InBounds(|grid|, st.pos)
    && OnlyOpenVisited(grid, st.visits)
    && VisitsAt(st.visits, st.pos) != 0
    && Total(st.visits) == st.moves
    && 1 <= st.moves <= Max(1, maxMoves)
    && IsRoute(grid, st.pos, st.plan)
    && (st.blocked != [] ==> st.finished && st.blocked == BlockedAround(grid, st.pos))
  }

  lemma StartValid(grid: Grid, maxMoves: int)
    requires WellFormed(grid)
    ensures Valid(grid, maxMoves, Start(grid))
  {
    var st := Start(grid);
    InitialTotal(|grid|);
    assert [st.pos] + st.plan == [st.pos];
    forall p | VisitsAt(st.visits, p) != 0 ensures IsOpen(grid, p) {
      assert p == Origin;
    }
  }

  /** Why a strategy gives up: Robot1 has no open neighbour; the others find
      no unvisited cell they can reach. */
  ghost predicate Stuck(strategy: Strategy, grid: Grid, st: RunState) {
    if strategy == LeastVisited then forall d :: 0 <= d < 4 ==> !IsOpen(grid, Shift(st.pos, UpDownLeftRight[d]))
    else !UnvisitedReachable(grid, st.visits, st.pos)
  }

  /** A finished run stopped on full coverage, on the budget, or stuck. */
  ghost predicate EndedWell(strategy: Strategy, grid: Grid, maxMoves: int, st: RunState) {
    st.finished ==> Covered(grid, st.visits) || st.moves >= maxMoves || Stuck(strategy, grid, st)
  }

  /** A turn ends the run, takes a step, or stores a plan where there was
      none. */
  ghost predicate Advances(st: RunState, st': RunState) {
    || st'.finished
    || st'.moves == st.moves + 1
    || (st'.moves == st.moves && st.plan == [] && st'.plan != [])
  }

  /** A turn that asks the strategy: the run is on, the budget not spent and
      some open cell not yet stood on. */
  ghost predicate Turning(grid: Grid, maxMoves: int, st: RunState) {
    Valid(grid, maxMoves, st) && !st.finished && st.moves < maxMoves && !Covered(grid, st.visits)
  }

  /** One step onto `q`: the robot stands there, its count rises by one and
      so does the move counter. */
  function Move(st: RunState, q: Pos): (st': RunState)
    requires 0 <= q.row < |st.visits| && 0 <= q.col < |st.visits[q.row]|
    ensures st'.pos == q && st'.moves == st.moves + 1
    ensures forall p :: VisitsAt(st'.visits, p) == VisitsAt(st.visits, p) + (if p == q then 1 else 0)
    ensures st'.finished == st.finished && st'.blocked == st.blocked && st'.plan == st.plan
  {
    st.(pos := q, visits := Increment(st.visits, q), moves := st.moves + 1)
  }

  /** A step to an open neighbour, within the budget, keeps `Valid` once the
      plan is brought up to date. */
  lemma MoveKeepsValid(grid: Grid, maxMoves: int, st: RunState, q: Pos, plan: seq<Pos>)
    requires WellFormed(grid) && Valid(grid, maxMoves, st) && !st.finished && st.moves < maxMoves
    requires Adjacent(st.pos, q) && IsOpen(grid, q) && IsRoute(grid, q, plan)
    ensures 0 <= q.row < |st.visits| && 0 <= q.col < |st.visits[q.row]|
    ensures Valid(grid, maxMoves, Move(st, q).(plan := plan))
  {
    OpenInBounds(grid, q);
    var st' := Move(st, q).(plan := plan);
    IncrementTotal(st.visits, q);
    forall i, j | 0 <= i < |st'.visits| && 0 <= j < |st'.visits[i]| ensures st'.visits[i][j] >= 0 {
      assert VisitsAt(st'.visits, Pos(i, j)) == st'.visits[i][j];
      assert VisitsAt(st.visits, Pos(i, j)) == st.visits[i][j];
    }
  }

  /** Ending the run as blocked: the obstacles around the robot are
      recorded. */
  function Block(grid: Grid, st: RunState): (st': RunState)
    ensures st'.finished && st'.blocked == BlockedAround(grid, st.pos)
    ensures st'.pos == st.pos && st'.visits == st.visits && st'.moves == st.moves && st'.plan == st.plan
  {
    st.(finished := true, blocked := BlockedAround(grid, st.pos))
  }

  /** A Robot1 turn: step to the neighbour `Greedy.Choose` picks, or end
      blocked when there is none. */
  method StepGreedy(grid: Grid, maxMoves: int, st: RunState) returns (st': RunState)
    requires WellFormed(grid) && Turning(grid, maxMoves, st) && st.plan == []
    ensures Valid(grid, maxMoves, st') && Advances(st, st') && EndedWell(LeastVisited, grid, maxMoves, st')
    ensures st'.plan == []
    ensures match Greedy.Choose(grid, st.visits, st.pos)
      case None => st' == Block(grid, st)
      case Some(q) => st' == Move(st, q)
  {
    match Greedy.Choose(grid, st.visits, st.pos)
    case None =>
      st' := Block(grid, st);
    case Some(q) =>
      EmptyRoute(grid, q);
      MoveKeepsValid(grid, maxMoves, st, q, []);
      st' := Move(st, q);
  }

  /** A Robot2 turn: search breadth-first afresh and take the first step of
      the route, or end blocked when the route is empty, which happens
      exactly when no unvisited cell can be reached. */
  method StepBfs(grid: Grid, maxMoves: int, st: RunState) returns (st': RunState)
    requires WellFormed(grid) && Turning(grid, maxMoves, st) && st.plan == []
    ensures Valid(grid, maxMoves, st') && Advances(st, st') && EndedWell(BreadthFirst, grid, maxMoves, st')
    ensures st'.finished <==> !UnvisitedReachable(grid, st.visits, st.pos)
    ensures st'.finished ==> st' == Block(grid, st)
    ensures !st'.finished ==> Adjacent(st.pos, st'.pos) && st' == Move(st, st'.pos) && st'.plan == []
    ensures !st'.finished ==> exists route :: Bfs.NearestRoute(grid, st.visits, st.pos, route) && route[0] == st'.pos
  {
    var route, _ := Bfs.FindPath(grid, st.visits, st.pos);
    if route == [] {
      st' := Block(grid, st);
    } else {
      assert Bfs.NearestRoute(grid, st.visits, st.pos, route);
      RouteTail(grid, st.pos, route);
      EmptyRoute(grid, route[0]);
      MoveKeepsValid(grid, maxMoves, st, route[0], []);
      st' := Move(st, route[0]);
    }
  }

  /** A Robot3 or Robot4 turn with a stored plan: step onto its first cell
      and keep the rest. */
  method FollowPlan(grid: Grid, maxMoves: int, st: RunState) returns (st': RunState)
    requires WellFormed(grid) && Turning(grid, maxMoves, st) && st.plan != []
    ensures Valid(grid, maxMoves, st') && !st'.finished
    ensures st'.pos == st.plan[0] && Adjacent(st.pos, st'.pos) && IsOpen(grid, st'.pos)
    ensures st' == Move(st, st'.pos).(plan := st.plan[1..])
  {
    RouteTail(grid, st.pos, st.plan);
    MoveKeepsValid(grid, maxMoves, st, st.plan[0], st.plan[1..]);
    st' := Move(st, st.plan[0]).(plan := st.plan[1..]);
  }

  /** A Robot3 turn without a plan: search with A* and store the route
      without moving, or end blocked when the route is empty, which happens
      exactly when no unvisited cell can be reached. The contract pins the
      stored route to a pop from a state meeting the search invariant, not
      to the state this search reaches. */
  method PlanAStar(grid: Grid, maxMoves: int, st: RunState) returns (st': RunState)
    requires WellFormed(grid) && Turning(grid, maxMoves, st) && st.plan == []
    ensures Valid(grid, maxMoves, st') && Advances(st, st') && EndedWell(AStarSearch, grid, maxMoves, st')
    ensures st'.finished <==> !UnvisitedReachable(grid, st.visits, st.pos)
    ensures st'.finished ==> st' == Block(grid, st)
    ensures !st'.finished ==> st' == st.(plan := st'.plan) && VisitsAt(st.visits, Last(st'.plan)) == 0
    ensures !st'.finished ==> forall i :: 0 <= i < |st'.plan| - 1 ==> VisitsAt(st.visits, st'.plan[i]) != 0
    ensures !st'.finished ==> AStar.PopReports(grid, st.visits, st.pos, st'.plan)
  {
    var route, _, last, lastClosed, lastRank := AStar.FindPath(grid, st.visits, st.pos);
    if route == [] {
      st' := Block(grid, st);
    } else {
      st' := st.(plan := route);
      assert AStar.Reports(grid, st.visits, st.pos, last, lastClosed, lastRank, route);
    }
  }

  /** A Robot4 turn without a plan: search depth-first and store the
      result without its first cell (the robot's own), or, when there is no
      result or it holds one cell only, end the run. The source scans the
      grid once more to tell a complete run from a blocked one; the scan at
      the start of the turn saw the same counts, so the run ends blocked. */
  method PlanDfs(grid: Grid, maxMoves: int, st: RunState) returns (st': RunState)
    requires WellFormed(grid) && Turning(grid, maxMoves, st) && st.plan == []
    ensures Valid(grid, maxMoves, st') && Advances(st, st') && EndedWell(DepthFirst, grid, maxMoves, st')
    ensures match Dfs.FindNextMove(grid, st.visits, st.pos, {})
      case None => st' == Block(grid, st)
      case Some(path) => |path| >= 2 && st' == st.(plan := path[1..])
  {
    Dfs.FindFromRobot(grid, st.visits, st.pos);
    var found := Dfs.FindNextMove(grid, st.visits, st.pos, {});
    if found.None? || |found.value| < 2 {
      var allVisited := ScanCovered(grid, st.visits);
      if allVisited {
        assert false;
      }
      st' := Block(grid, st);
    } else {
      var path := found.value;
      assert [st.pos] + path[1..] == path;
      st' := st.(plan := path[1..]);
    }
  }

  /** Robot1 and Robot2 keep no stored plan. */
  predicate Planless(strategy: Strategy) {
    strategy == LeastVisited || strategy == BreadthFirst
  }

  /** What the turn loop keeps true for a given strategy. */
  ghost predicate Sound(strategy: Strategy, grid: Grid, maxMoves: int, st: RunState) {
    && Valid(grid, maxMoves, st)
    && EndedWell(strategy, grid, maxMoves, st)
    && (Planless(strategy) ==> st.plan == [])
  }

  /** A turn that reaches the strategy: the run is on, the stop signal off,
      the budget not spent and some open cell not yet stood on. */
  ghost predicate Asks(grid: Grid, maxMoves: int, st: RunState, stop: bool) {
    !st.finished && !stop && st.moves < maxMoves && !Covered(grid, st.visits)
  }

  /** One turn of a robot: nothing once the run is over or the stop signal
      is on; the run ends when `moves >= maxMoves`, checked before coverage;
      it ends when every open cell has been stood on; otherwise the strategy
      decides. A step goes to an open neighbour and changes nothing but the
      position, that cell's count, the move counter and the plan. When the
      strategy decides: Robot1 steps to `Greedy.Choose`'s cell; Robot2 steps
      to the first cell of a shortest route to an unvisited cell; Robot3 and
      Robot4 step along a stored plan while there is one, and only with no
      plan search, storing what they find (for Robot3, a route that a pop of
      the A* search reports from some state meeting the search invariant); every strategy ends blocked when
      its search finds nothing. */
  method Step(strategy: Strategy, grid: Grid, maxMoves: int, st: RunState, stop: bool) returns (st': RunState)
    requires WellFormed(grid) && Sound(strategy, grid, maxMoves, st)
    ensures Sound(strategy, grid, maxMoves, st')
    ensures st.finished || stop ==> st' == st
    ensures !st.finished && !stop ==> Advances(st, st')
    ensures !st.finished && !stop && st.moves >= maxMoves ==> st' == st.(finished := true)
    ensures !st.finished && !stop && st.moves < maxMoves && Covered(grid, st.visits) ==> st' == st.(finished := true)
    ensures st'.moves == st.moves || st'.moves == st.moves + 1
    ensures st'.moves == st.moves + 1 ==>
      && st.moves < maxMoves && Adjacent(st.pos, st'.pos) && IsOpen(grid, st'.pos)
      && st' == Move(st, st'.pos).(plan := st'.plan) && !st'.finished
    ensures st'.moves == st.moves ==> st'.visits == st.visits && st'.pos == st.pos
    ensures Asks(grid, maxMoves, st, stop) && strategy == LeastVisited ==>
      (match Greedy.Choose(grid, st.visits, st.pos)
       case None => st' == Block(grid, st)
       case Some(q) => st' == Move(st, q))
    ensures Asks(grid, maxMoves, st, stop) && strategy == BreadthFirst ==>
      if UnvisitedReachable(grid, st.visits, st.pos)
      then st' == Move(st, st'.pos) && exists route :: Bfs.NearestRoute(grid, st.visits, st.pos, route) && route[0] == st'.pos
      else st' == Block(grid, st)
    ensures Asks(grid, maxMoves, st, stop) && !Planless(strategy) && st.plan != [] ==>
      st'.pos == st.plan[0] && st' == Move(st, st'.pos).(plan := st.plan[1..])
    ensures Asks(grid, maxMoves, st, stop) && strategy == AStarSearch && st.plan == [] ==>
      if UnvisitedReachable(grid, st.visits, st.pos)
      then && st' == st.(plan := st'.plan) && st'.plan != [] && VisitsAt(st.visits, Last(st'.plan)) == 0
           && (forall i :: 0 <= i < |st'.plan| - 1 ==> VisitsAt(st.visits, st'.plan[i]) != 0)
           && AStar.PopReports(grid, st.visits, st.pos, st'.plan)
      else st' == Block(grid, st)
    ensures Asks(grid, maxMoves, st, stop) && strategy == DepthFirst && st.plan == [] ==>
      (match Dfs.FindNextMove(grid, st.visits, st.pos, {})
       case None => st' == Block(grid, st)
       case Some(path) => st' == st.(plan := path[1..]))
  {
    if st.finished || stop {
      return st;
    }
    if st.moves >= maxMoves {
      return st.(finished := true);
    }
    var allVisited := ScanCovered(grid, st.visits);
    if allVisited {
      return st.(finished := true);
    }
    if strategy == LeastVisited {
      st' := StepGreedy(grid, maxMoves, st);
    } else if strategy == BreadthFirst {
      st' := StepBfs(grid, maxMoves, st);
    } else if st.plan != [] {
      st' := FollowPlan(grid, maxMoves, st);
      RouteTail(grid, st.pos, st.plan);
    } else if strategy == AStarSearch {
      st' := PlanAStar(grid, maxMoves, st);
    } else {
      st' := PlanDfs(grid, maxMoves, st);
    }
  }

  /** The result effect: counts stood-on cells, counts non-obstacle cells,
      re-scans for full coverage and subtracts the initial move. Fewer cells
      are stood on than there are open cells, and as many exactly when the
      result reports completion. */
  method Snapshot(grid: Grid, st: RunState) returns (r: RobotResult)
    requires WellFormed(grid) && Shaped(grid, st.visits) && OnlyOpenVisited(grid, st.visits)
    ensures r.isCleaningComplete <==> Covered(grid, st.visits)
    ensures r.moves == st.moves - 1
    ensures r.cellsVisited == CellsVisited(st.visits) && r.totalCleanableCells == CleanableCount(grid)
    ensures r.cellsVisited <= r.totalCleanableCells
    ensures r.isCleaningComplete ==> r.cellsVisited == r.totalCleanableCells
  {
    var allVisited := ScanCovered(grid, st.visits);
    VisitedVersusCleanable(grid, st.visits);
    r := RobotResult(CellsVisited(st.visits), CleanableCount(grid), allVisited, st.moves - 1);
  }

  /** The stop-signal effect. Robot3 and Robot4 report the run so far as
      incomplete, whatever its coverage; Robot1 and Robot2 only stop moving
      (`Step` ignores every turn while the signal is on) and report nothing. */
  function Cancel(strategy: Strategy, grid: Grid, st: RunState): (r: Option<RobotResult>)
    ensures r.Some? <==> !Planless(strategy)
    ensures r.Some? ==> !r.value.isCleaningComplete && r.value.moves == st.moves - 1
    ensures r.Some? ==> r.value.cellsVisited == CellsVisited(st.visits) && r.value.totalCleanableCells == CleanableCount(grid)
  {
    if Planless(strategy) then None
    else Some(RobotResult(CellsVisited(st.visits), CleanableCount(grid), false, st.moves - 1))
  }

  /** A measure that every turn of an unfinished run lowers: two per move
      left in the budget, plus one while no plan is stored. */
  function Fuel(maxMoves: int, st: RunState): nat {
    if st.finished then 0
    else var left := Max(1, maxMoves) - st.moves;
      (if left > 0 then 2 * left else 0) + (if st.plan == [] then 1 else 0)
  }

  /** A whole run without a stop signal: turns until the run is over, then
      the result. The run ends with the counts adding up to the reported
      moves plus one, at most `maxMoves - 1` moves reported, and, when not
      every open cell was stood on, either the budget spent or the strategy
      stuck. */
  method Run(strategy: Strategy, grid: Grid, maxMoves: int) returns (st: RunState, r: RobotResult)
    requires WellFormed(grid)
    ensures Sound(strategy, grid, maxMoves, st) && st.finished
    ensures Total(st.visits) == r.moves + 1
    ensures 0 <= r.moves <= Max(0, maxMoves - 1)
    ensures r.isCleaningComplete <==> Covered(grid, st.visits)
    ensures !r.isCleaningComplete ==> r.moves + 1 >= maxMoves || Stuck(strategy, grid, st)
    ensures r.cellsVisited <= r.totalCleanableCells
    ensures r.isCleaningComplete ==> r.cellsVisited == r.totalCleanableCells
  {
    st := Start(grid);
    StartValid(grid, maxMoves);
    while !st.finished
      invariant Sound(strategy, grid, maxMoves, st)
      decreases (if st.finished then 0 else 1), Fuel(maxMoves, st)
    {
      st := Step(strategy, grid, maxMoves, st, false);
    }
    r := Snapshot(grid, st);
  }
}

=== FILE: seqs.dfy ===
/** Small sequence vocabulary shared by the whole model: an optional value,
    order-preserving filtering, flattening of a matrix and a count of the
    elements that satisfy a predicate. */
module Seqs {

  /** Stands for a value that may be absent (`null` in the source). */
  datatype Option<T> = None | Some(value: T)

  function Last<T>(s: seq<T>): T
    requires |s| > 0
  {
    s[|s| - 1]
  }

  /** No element occurs twice. */
  ghost predicate Distinct<T>(s: seq<T>) {
    forall i, j :: 0 <= i < j < |s| ==> s[i] != s[j]
  }

  /** `x` occurs in `s` somewhere before `y`. */
  ghost predicate ListedBefore<T>(s: seq<T>, x: T, y: T) {
    exists a, b :: 0 <= a < b < |s| && s[a] == x && s[b] == y
  }

  /** In a sequence without repeats two elements come in one order only. */
  lemma ListedOneWay<T>(s: seq<T>, x: T, y: T)
    requires Distinct(s) && ListedBefore(s, x, y)
    ensures !ListedBefore(s, y, x)
  {
  }

  /** The elements of `s` that satisfy `p`, in their original order
      (`Array.prototype.filter`). */
  function Filter<T>(s: seq<T>, p: T -> bool): (r: seq<T>)
    ensures |r| <= |s|
    ensures forall i :: 0 <= i < |r| ==> r[i] in s && p(r[i])
    ensures forall i :: 0 <= i < |s| && p(s[i]) ==> s[i] in r
  {
    if |s| == 0 then []
    else if p(s[0]) then [s[0]] + Filter(s[1..], p)
    else Filter(s[1..], p)
  }

  lemma FilterAppend<T>(a: seq<T>, b: seq<T>, p: T -> bool)
    ensures Filter(a + b, p) == Filter(a, p) + Filter(b, p)
  {
    if |a| > 0 {
      assert (a + b)[1..] == a[1..] + b;
      FilterAppend(a[1..], b, p);
    } else {
      assert a + b == b;
    }
  }

  /** Filtering keeps a sequence free of repeats. */
  lemma {:induction false} FilterDistinct<T>(s: seq<T>, p: T -> bool)
    requires Distinct(s)
    ensures Distinct(Filter(s, p))
  {
    if |s| > 0 {
      FilterDistinct(s[1..], p);
      var t := Filter(s[1..], p);
      if p(s[0]) {
        assert s[0] !in s[1..];
      }
    }
  }

  /** A filter that every element passes keeps the sequence as it is. */
  lemma {:induction false} FilterKeepsAll<T>(s: seq<T>, p: T -> bool)
    requires forall i :: 0 <= i < |s| ==> p(s[i])
    ensures Filter(s, p) == s
  {
    if |s| > 0 {
      forall i | 0 <= i < |s| - 1 ensures p(s[1..][i]) {
        assert s[1..][i] == s[i + 1];
      }
      FilterKeepsAll(s[1..], p);
      assert s == [s[0]] + s[1..];
    }
  }

  /** Filtering keeps the relative order of what it keeps. */
  lemma {:induction false} FilterListedBefore<T>(s: seq<T>, p: T -> bool, x: T, y: T)
    requires ListedBefore(Filter(s, p), x, y)
    ensures ListedBefore(s, x, y)
  {
    var t := Filter(s, p);
    var a, b :| 0 <= a < b < |t| && t[a] == x && t[b] == y;
    if p(s[0]) && a == 0 {
      assert t[b] in s[1..];
      var k :| 0 <= k < |s[1..]| && s[1..][k] == y;
      assert s[0] == x && s[k + 1] == y;
    } else if p(s[0]) {
      assert Filter(s[1..], p)[a - 1] == x && Filter(s[1..], p)[b - 1] == y;
      FilterListedBefore(s[1..], p, x, y);
      ListedInTail(s, x, y);
    } else {
      FilterListedBefore(s[1..], p, x, y);
      ListedInTail(s, x, y);
    }
  }

  /** Filtering keeps two kept elements in their order. */
  lemma {:induction false} FilterKeepsListedBefore<T>(s: seq<T>, p: T -> bool, a: int, b: int)
    requires 0 <= a < b < |s| && p(s[a]) && p(s[b])
    ensures ListedBefore(Filter(s, p), s[a], s[b])
  {
    var t := Filter(s[1..], p);
    assert s[1..][b - 1] == s[b];
    if a == 0 {
      var k :| 0 <= k < |t| && t[k] == s[b];
      assert Filter(s, p)[0] == s[0] && Filter(s, p)[k + 1] == s[b];
    } else {
      assert s[1..][a - 1] == s[a];
      FilterKeepsListedBefore(s[1..], p, a - 1, b - 1);
      if p(s[0]) {
        assert Filter(s, p)[1..] == t;
        ListedInTail(Filter(s, p), s[a], s[b]);
      }
    }
  }

  lemma ListedInTail<T>(s: seq<T>, x: T, y: T)
    requires |s| > 0 && ListedBefore(s[1..], x, y)
    ensures ListedBefore(s, x, y)
  {
    var a, b :| 0 <= a < b < |s[1..]| && s[1..][a] == x && s[1..][b] == y;
    assert s[a + 1] == x && s[b + 1] == y;
  }

  /** The rows of a matrix laid end to end (`Array.prototype.flat`). */
  function Flatten<T>(m: seq<seq<T>>): seq<T> {
    if |m| == 0 then [] else m[0] + Flatten(m[1..])
  }

  lemma FlattenAppend<T>(a: seq<seq<T>>, b: seq<seq<T>>)
    ensures Flatten(a + b) == Flatten(a) + Flatten(b)
  {
    if |a| > 0 {
      assert (a + b)[1..] == a[1..] + b;
      FlattenAppend(a[1..], b);
    } else {
      assert a + b == b;
    }
  }
}

=== FILE: stable_sort.dfy ===
/** Sorting by an integer key with a comparator that subtracts keys.
    `Array.prototype.sort` is stable,
    so every conforming implementation produces the same sequence as the
    insertion sort below: ascending keys, equal keys in their original order. */
module StableSort {
  import opened Seqs

  ghost predicate SortedBy<T>(s: seq<T>, key: T -> int) {
    forall i, j :: 0 <= i < j < |s| ==> key(s[i]) <= key(s[j])
  }

  /** Places `x` in front of the first element whose key is not smaller, so
      `x` precedes every element of `s` that has the same key. */
  function InsertBy<T>(x: T, s: seq<T>, key: T -> int): seq<T> {
    if |s| == 0 || key(x) <= key(s[0]) then [x] + s
    else [s[0]] + InsertBy(x, s[1..], key)
  }

  function SortBy<T>(s: seq<T>, key: T -> int): seq<T> {
    if |s| == 0 then [] else InsertBy(s[0], SortBy(s[1..], key), key)
  }

  /** The elements of `s` whose key is `v`, in order. */
  function WithKey<T>(s: seq<T>, key: T -> int, v: int): seq<T> {
    if |s| == 0 then []
    else if key(s[0]) == v then [s[0]] + WithKey(s[1..], key, v)
    else WithKey(s[1..], key, v)
  }

  /** Two elements with key `v`, in order, stay in order among those with
      key `v`. */
  lemma {:induction false} WithKeyKeepsOrder<T>(s: seq<T>, key: T -> int, v: int, i: int, j: int)
    requires 0 <= i < j < |s| && key(s[i]) == v && key(s[j]) == v
    ensures ListedBefore(WithKey(s, key, v), s[i], s[j])
  {
    var t := WithKey(s, key, v);
    if i == 0 {
      WithKeyHas(s[1..], key, v, j - 1);
      var k :| 0 <= k < |WithKey(s[1..], key, v)| && WithKey(s[1..], key, v)[k] == s[j];
      assert t[0] == s[0] && t[k + 1] == s[j];
    } else {
      WithKeyKeepsOrder(s[1..], key, v, i - 1, j - 1);
      var u := WithKey(s[1..], key, v);
      var a, b :| 0 <= a < b < |u| && u[a] == s[i] && u[b] == s[j];
      if key(s[0]) == v {
        assert t[a + 1] == s[i] && t[b + 1] == s[j];
      }
    }
  }

  lemma {:induction false} WithKeyHas<T>(s: seq<T>, key: T -> int, v: int, j: int)
    requires 0 <= j < |s| && key(s[j]) == v
    ensures s[j] in WithKey(s, key, v)
  {
    if j > 0 {
      WithKeyHas(s[1..], key, v, j - 1);
    }
  }

  /** Keeping the elements with one key keeps their relative order. */
  lemma {:induction false} WithKeyListedBefore<T>(s: seq<T>, key: T -> int, v: int, x: T, y: T)
    requires ListedBefore(WithKey(s, key, v), x, y)
    ensures ListedBefore(s, x, y)
  {
    var t := WithKey(s, key, v);
    var a, b :| 0 <= a < b < |t| && t[a] == x && t[b] == y;
    if key(s[0]) == v && a == 0 {
      WithKeyIn(s[1..], key, v, b - 1);
      var k :| 0 <= k < |s[1..]| && s[1..][k] == y;
      assert s[0] == x && s[k + 1] == y;
    } else if key(s[0]) == v {
      assert WithKey(s[1..], key, v)[a - 1] == x && WithKey(s[1..], key, v)[b - 1] == y;
      WithKeyListedBefore(s[1..], key, v, x, y);
      ListedInTail(s, x, y);
    } else {
      WithKeyListedBefore(s[1..], key, v, x, y);
      ListedInTail(s, x, y);
    }
  }

  lemma {:induction false} WithKeyIn<T>(s: seq<T>, key: T -> int, v: int, k: int)
    requires 0 <= k < |WithKey(s, key, v)|
    ensures WithKey(s, key, v)[k] in s
  {
    if key(s[0]) == v && k == 0 {
    } else if key(s[0]) == v {
      WithKeyIn(s[1..], key, v, k - 1);
    } else {
      WithKeyIn(s[1..], key, v, k);
    }
  }

  lemma {:induction false} InsertByMultiset<T>(x: T, s: seq<T>, key: T -> int)
    ensures multiset(InsertBy(x, s, key)) == multiset(s) + multiset{x}
  {
    if |s| > 0 && key(x) > key(s[0]) {
      InsertByMultiset(x, s[1..], key);
      assert s == [s[0]] + s[1..];
    }
  }

  lemma {:induction false} InsertBySorted<T>(x: T, s: seq<T>, key: T -> int)
    requires SortedBy(s, key)
    ensures SortedBy(InsertBy(x, s, key), key)
  {
    if |s| > 0 && key(x) > key(s[0]) {
      var t := InsertBy(x, s[1..], key);
      InsertBySorted(x, s[1..], key);
      InsertByBound(x, s[1..], key, key(s[0]));
      var r := InsertBy(x, s, key);
      assert r == [s[0]] + t;
      forall i, j | 0 <= i < j < |r| ensures key(r[i]) <= key(r[j]) {
        assert r[j] == t[j - 1];
        if i > 0 {
          assert r[i] == t[i - 1];
        }
      }
    }
  }

  /** A lower bound on the keys survives an insertion that respects it. */
  lemma {:induction false} InsertByBound<T>(x: T, s: seq<T>, key: T -> int, b: int)
    requires key(x) >= b && forall k :: 0 <= k < |s| ==> key(s[k]) >= b
    ensures forall k :: 0 <= k < |InsertBy(x, s, key)| ==> key(InsertBy(x, s, key)[k]) >= b
  {
    if |s| > 0 && key(x) > key(s[0]) {
      InsertByBound(x, s[1..], key, b);
      var t := InsertBy(x, s[1..], key);
      assert InsertBy(x, s, key) == [s[0]] + t;
    }
  }

  /** Elements of two sequences with the same multiset are the same. */
  lemma SameMembers<T>(a: seq<T>, b: seq<T>)
    requires multiset(a) == multiset(b)
    ensures |a| == |b|
    ensures forall i :: 0 <= i < |a| ==> a[i] in b
    ensures forall i :: 0 <= i < |b| ==> b[i] in a
  {
    assert |multiset(a)| == |a| && |multiset(b)| == |b|;
    forall i | 0 <= i < |a| ensures a[i] in b {
      assert a[i] in multiset(a);
    }
    forall i | 0 <= i < |b| ensures b[i] in a {
      assert b[i] in multiset(b);
    }
  }

  lemma {:induction false} SortByMultiset<T>(s: seq<T>, key: T -> int)
    ensures multiset(SortBy(s, key)) == multiset(s)
    ensures SortedBy(SortBy(s, key), key)
  {
    if |s| > 0 {
      SortByMultiset(s[1..], key);
      InsertByMultiset(s[0], SortBy(s[1..], key), key);
      InsertBySorted(s[0], SortBy(s[1..], key), key);
      assert s == [s[0]] + s[1..];
    }
  }

  /** Sorting rearranges its input into ascending key order. */
  lemma SortByPermutes<T>(s: seq<T>, key: T -> int)
    ensures multiset(SortBy(s, key)) == multiset(s)
    ensures |SortBy(s, key)| == |s|
    ensures SortedBy(SortBy(s, key), key)
    ensures forall i :: 0 <= i < |s| ==> s[i] in SortBy(s, key)
    ensures forall i :: 0 <= i < |SortBy(s, key)| ==> SortBy(s, key)[i] in s
  {
    SortByMultiset(s, key);
    SameMembers(SortBy(s, key), s);
  }

  lemma {:induction false} InsertByWithKey<T>(x: T, s: seq<T>, key: T -> int, v: int)
    ensures WithKey(InsertBy(x, s, key), key, v)
         == (if key(x) == v then [x] else []) + WithKey(s, key, v)
  {
    if |s| == 0 || key(x) <= key(s[0]) {
      assert ([x] + s)[1..] == s;
    } else {
      var r := InsertBy(x, s, key);
      assert r[1..] == InsertBy(x, s[1..], key);
      InsertByWithKey(x, s[1..], key, v);
    }
  }

  /** Stability: among elements with equal keys, sorting keeps the input order. */
  lemma {:induction false} SortByIsStable<T>(s: seq<T>, key: T -> int, v: int)
    ensures WithKey(SortBy(s, key), key, v) == WithKey(s, key, v)
  {
    if |s| > 0 {
      SortByIsStable(s[1..], key, v);
      InsertByWithKey(s[0], SortBy(s[1..], key), key, v);
    }
  }

  /** `h` satisfies `p`, has the least key among the elements of `s` that
      satisfy `p`, and every element before it that satisfies `p` has a
      strictly larger key. */
  ghost predicate IsFirstLeast<T>(s: seq<T>, p: T -> bool, key: T -> int, h: T) {
    && p(h)
    && (forall j :: 0 <= j < |s| && p(s[j]) ==> key(h) <= key(s[j]))
    && exists i :: 0 <= i < |s| && s[i] == h
         && forall j :: 0 <= j < i && p(s[j]) ==> key(h) < key(s[j])
  }

  lemma FirstLeastOfHead<T>(s: seq<T>, p: T -> bool, key: T -> int)
    requires |s| > 0 && p(s[0])
    requires forall j :: 1 <= j < |s| && p(s[j]) ==> key(s[0]) <= key(s[j])
    ensures IsFirstLeast(s, p, key, s[0])
  {
  }

  lemma FirstLeastOfTail<T>(s: seq<T>, p: T -> bool, key: T -> int, h: T)
    requires |s| > 0 && IsFirstLeast(s[1..], p, key, h)
    requires p(s[0]) ==> key(h) < key(s[0])
    ensures IsFirstLeast(s, p, key, h)
  {
    var i' :| 0 <= i' < |s[1..]| && s[1..][i'] == h
         && forall j :: 0 <= j < i' && p(s[1..][j]) ==> key(h) < key(s[1..][j]);
    assert s[i' + 1] == h;
    forall j | 0 <= j < |s| && p(s[j]) ensures key(h) <= key(s[j]) {
      if j > 0 {
        assert s[1..][j - 1] == s[j];
      }
    }
    forall j | 0 <= j < i' + 1 && p(s[j]) ensures key(h) < key(s[j]) {
      if j > 0 {
        assert s[1..][j - 1] == s[j];
      }
    }
  }

  /** Keeping the elements that satisfy `p` and then sorting puts first the
      earliest element that satisfies `p` and has the least key among those. */
  lemma {:induction false} FilteredSortHead<T>(s: seq<T>, p: T -> bool, key: T -> int)
    requires |Filter(s, p)| > 0
    ensures |SortBy(Filter(s, p), key)| > 0
    ensures IsFirstLeast(s, p, key, SortBy(Filter(s, p), key)[0])
  {
    var f := Filter(s, p);
    SortByPermutes(f, key);
    var h := SortBy(f, key)[0];
    var rest := Filter(s[1..], p);
    if p(s[0]) {
      assert f == [s[0]] + rest;
      assert f[1..] == rest;
      if |rest| == 0 {
        assert h == s[0];
        assert forall j :: 1 <= j < |s| ==> s[j] == s[1..][j - 1];
        FirstLeastOfHead(s, p, key);
      } else {
        FilteredSortHead(s[1..], p, key);
        var h' := SortBy(rest, key)[0];
        assert h == (if key(s[0]) <= key(h') then s[0] else h');
        if key(s[0]) > key(h') {
          FirstLeastOfTail(s, p, key, h');
        } else {
          forall j | 1 <= j < |s| && p(s[j]) ensures key(s[0]) <= key(s[j]) {
            assert s[1..][j - 1] == s[j];
          }
          FirstLeastOfHead(s, p, key);
        }
      }
    } else {
      assert f == rest;
      FilteredSortHead(s[1..], p, key);
      FirstLeastOfTail(s, p, key, h);
    }
  }

  ghost predicate Pairwise<T>(s: seq<T>, related: (T, T) -> bool) {
    forall i, j :: 0 <= i < |s| && 0 <= j < |s| && i != j ==> related(s[i], s[j])
  }

  /** A relation that holds between every two elements still holds after
      sorting (used for "no position occurs twice"). */
  lemma {:induction false} SortByKeepsPairwise<T>(s: seq<T>, key: T -> int, related: (T, T) -> bool)
    requires Pairwise(s, related)
    ensures Pairwise(SortBy(s, key), related)
  {
    if |s| > 0 {
      TailKeepsPairwise(s, related);
      SortByKeepsPairwise(s[1..], key, related);
      var t := SortBy(s[1..], key);
      SortByPermutes(s[1..], key);
      forall y | y in t ensures related(s[0], y) && related(y, s[0]) {
        assert y in s[1..];
        var k :| 0 <= k < |s[1..]| && s[1..][k] == y;
        assert s[k + 1] == y;
      }
      InsertByKeepsPairwise(s[0], t, key, related);
    }
  }

  lemma {:induction false} InsertByKeepsPairwise<T>(x: T, s: seq<T>, key: T -> int, related: (T, T) -> bool)
    requires Pairwise(s, related)
    requires forall y :: y in s ==> related(x, y) && related(y, x)
    ensures Pairwise(InsertBy(x, s, key), related)
  {
    if |s| == 0 || key(x) <= key(s[0]) {
      ConsKeepsPairwise(x, s, related);
    } else {
      var t := s[1..];
      TailKeepsPairwise(s, related);
      InsertByKeepsPairwise(x, t, key, related);
      var u := InsertBy(x, t, key);
      InsertByMultiset(x, t, key);
      forall y | y in u ensures related(s[0], y) && related(y, s[0]) {
        assert y in multiset(u);
        if y != x {
          assert y in t;
          var k :| 0 <= k < |t| && t[k] == y;
          assert s[k + 1] == y;
        }
      }
      ConsKeepsPairwise(s[0], u, related);
    }
  }

  lemma TailKeepsPairwise<T>(s: seq<T>, related: (T, T) -> bool)
    requires Pairwise(s, related) && |s| > 0
    ensures Pairwise(s[1..], related)
  {
    var t := s[1..];
    forall i, j | 0 <= i < |t| && 0 <= j < |t| && i != j ensures related(t[i], t[j]) {
      assert t[i] == s[i + 1] && t[j] == s[j + 1];
    }
  }

  lemma ConsKeepsPairwise<T>(x: T, s: seq<T>, related: (T, T) -> bool)
    requires Pairwise(s, related)
    requires forall y :: y in s ==> related(x, y) && related(y, x)
    ensures Pairwise([x] + s, related)
  {
    var r := [x] + s;
    forall i, j | 0 <= i < |r| && 0 <= j < |r| && i != j ensures related(r[i], r[j]) {
      if i > 0 && j > 0 {
        assert r[i] == s[i - 1] && r[j] == s[j - 1];
      } else if i == 0 {
        assert r[j] == s[j - 1];
      } else {
        assert r[i] == s[i - 1];
      }
    }
  }
}

=== FILE: visit_map.dfy ===
/** A robot's visit-count matrix: how many times it has stood on each cell.
    Each robot owns its own copy; a move replaces it by a copy with one
    entry raised by one. */
module VisitMap {
  import opened Seqs
  import opened GridModel

  type Visits = seq<seq<int>>

  /** Same shape as the grid and no negative count. */
  ghost predicate Shaped(grid: Grid, v: Visits) {
    && |v| == |grid|
    && (forall i :: 0 <= i < |v| ==> |v[i]| == |grid|)
    && (forall i, j :: 0 <= i < |v| && 0 <= j < |v[i]| ==> v[i][j] >= 0)
  }

  /** The count at `p`, or 0 outside the matrix (Robot1 reads counts with
      a `|| 0` default; every other read is in bounds). */
  function VisitsAt(v: Visits, p: Pos): int {
    if 0 <= p.row < |v| && 0 <= p.col < |v[p.row]| then v[p.row][p.col] else 0
  }

  /** The visit count as a sort key. */
  function CountKey(v: Visits): Pos -> int {
    q => VisitsAt(v, q)
  }

  /** Only open cells have ever been stood on. */
  ghost predicate OnlyOpenVisited(grid: Grid, v: Visits) {
    forall p :: VisitsAt(v, p) != 0 ==> IsOpen(grid, p)
  }

  /** Every open cell has been stood on at least once (coverage). */
  ghost predicate Covered(grid: Grid, v: Visits) {
    forall p :: IsOpen(grid, p) ==> VisitsAt(v, p) != 0
  }

  /** Some cell with count 0 can be reached from `start` through open cells. */
  ghost predicate UnvisitedReachable(grid: Grid, v: Visits, start: Pos) {
    exists w :: IsWalkFrom(grid, start, w) && VisitsAt(v, Last(w)) == 0
  }

  /** The matrix a robot starts with: 1 on the start cell, 0 elsewhere. */
  function Initial(n: nat): (v: Visits)
    requires n >= 1
    ensures |v| == n && forall i :: 0 <= i < n ==> |v[i]| == n
    ensures forall p :: VisitsAt(v, p) == (if p == Origin && InBounds(n, p) then 1 else 0)
  {
    seq(n, i => seq(n, j => if i == 0 && j == 0 then 1 else 0))
  }

  /** Standing on `p` once more: that entry rises by one and nothing else
      changes. */
  function Increment(v: Visits, p: Pos): (v': Visits)
    requires 0 <= p.row < |v| && 0 <= p.col < |v[p.row]|
    ensures |v'| == |v| && forall i :: 0 <= i < |v| ==> |v'[i]| == |v[i]|
    ensures forall q :: VisitsAt(v', q) == VisitsAt(v, q) + (if q == p then 1 else 0)
  {
    v[p.row := v[p.row][p.col := v[p.row][p.col] + 1]]
  }

  function SumOf(s: seq<int>): int {
    if |s| == 0 then 0 else s[0] + SumOf(s[1..])
  }

  /** Sum of all counts. */
  function Total(v: Visits): int {
    SumOf(Flatten(v))
  }

  lemma {:induction false} SumOfAppend(a: seq<int>, b: seq<int>)
    ensures SumOf(a + b) == SumOf(a) + SumOf(b)
  {
    if |a| > 0 {
      assert (a + b)[1..] == a[1..] + b;
      SumOfAppend(a[1..], b);
    } else {
      assert a + b == b;
    }
  }

  lemma SumOfBump(s: seq<int>, k: int)
    requires 0 <= k < |s|
    ensures SumOf(s[k := s[k] + 1]) == SumOf(s) + 1
  {
    var t := s[k := s[k] + 1];
    assert s == s[..k] + [s[k]] + s[k + 1..];
    assert t == s[..k] + [s[k] + 1] + s[k + 1..];
    SumOfAppend(s[..k] + [s[k]], s[k + 1..]);
    SumOfAppend(s[..k], [s[k]]);
    SumOfAppend(s[..k] + [s[k] + 1], s[k + 1..]);
    SumOfAppend(s[..k], [s[k] + 1]);
  }

  /** The total splits around row `r`. */
  lemma TotalAround(v: Visits, r: int)
    requires 0 <= r < |v|
    ensures Total(v) == Total(v[..r]) + SumOf(v[r]) + Total(v[r + 1..])
  {
    assert v == v[..r] + [v[r]] + v[r + 1..];
    FlattenAppend(v[..r] + [v[r]], v[r + 1..]);
    FlattenAppend(v[..r], [v[r]]);
    assert Flatten([v[r]]) == v[r];
    SumOfAppend(Flatten(v[..r]) + v[r], Flatten(v[r + 1..]));
    SumOfAppend(Flatten(v[..r]), v[r]);
  }

  /** One increment raises the total by exactly one, which is why the total
      always equals the move counter. */
  lemma IncrementTotal(v: Visits, p: Pos)
    requires 0 <= p.row < |v| && 0 <= p.col < |v[p.row]|
    ensures Total(Increment(v, p)) == Total(v) + 1
  {
    TotalBump(v, p.row, p.col);
  }

  lemma TotalBump(v: Visits, r: int, c: int)
    requires 0 <= r < |v| && 0 <= c < |v[r]|
    ensures Total(v[r := v[r][c := v[r][c] + 1]]) == Total(v) + 1
  {
    var v' := v[r := v[r][c := v[r][c] + 1]];
    TotalAround(v, r);
    TotalAround(v', r);
    assert v'[..r] == v[..r];
    assert v'[r + 1..] == v[r + 1..];
    SumOfBump(v[r], c);
  }

  lemma InitialTotal(n: nat)
    requires n >= 1
    ensures Total(Initial(n)) == 1
  {
    var v := Initial(n);
    var z := seq(n, j => 0);
    assert v[0] == [1] + z[1..];
    assert forall i :: 1 <= i < n ==> v[i] == z;
    ZerosSum(z);
    ZerosSum(z[1..]);
    ZeroRowsTotal(v[1..], z);
    assert Flatten(v) == v[0] + Flatten(v[1..]);
    SumOfAppend([1], z[1..]);
    SumOfAppend(v[0], Flatten(v[1..]));
  }

  lemma {:induction false} ZerosSum(s: seq<int>)
    requires forall k :: 0 <= k < |s| ==> s[k] == 0
    ensures SumOf(s) == 0
  {
    if |s| > 0 {
      ZerosSum(s[1..]);
    }
  }

  lemma {:induction false} ZeroRowsTotal(m: seq<seq<int>>, z: seq<int>)
    requires SumOf(z) == 0
    requires forall i :: 0 <= i < |m| ==> m[i] == z
    ensures Total(m) == 0
  {
    if |m| > 0 {
      ZeroRowsTotal(m[1..], z);
      SumOfAppend(m[0], Flatten(m[1..]));
    }
  }

  predicate IsVisitedCount(c: int) {
    c > 0
  }

  /** Number of cells stood on at least once, the `cellsVisited` of a
      result. */
  function CellsVisited(v: Visits): nat {
    |Filter(Flatten(v), IsVisitedCount)|
  }

  /** The coverage scan run at the start of every turn and again when a
      result is produced: a row-by-row search for an open cell whose count
      is 0, leaving both loops at the first one found. */
  method ScanCovered(grid: Grid, v: Visits) returns (allVisited: bool)
    requires WellFormed(grid) && Shaped(grid, v)
    ensures allVisited <==> Covered(grid, v)
  {
    var n := |grid|;
    allVisited := true;
    var i := 0;
    while i < n
      invariant 0 <= i <= n
      invariant allVisited <==> forall p :: IsOpen(grid, p) && p.row < i ==> VisitsAt(v, p) != 0
    {
      var j := 0;
      while j < n
        invariant 0 <= j <= n
        invariant allVisited <==> forall p :: IsOpen(grid, p) && (p.row < i || (p.row == i && p.col < j)) ==> VisitsAt(v, p) != 0
      {
        if grid[i][j] != OBSTACLE && v[i][j] == 0 {
          allVisited := false;
          assert IsOpen(grid, Pos(i, j)) && VisitsAt(v, Pos(i, j)) == 0;
          break;
        }
        j := j + 1;
      }
      if !allVisited {
        break;
      }
      i := i + 1;
    }
  }

  /** Row by row, the cells counted as visited are at most the open cells
      of the same row, and exactly as many when every open cell of the row
      was visited. */
  lemma {:induction false} RowCounts(g: seq<int>, w: seq<int>)
    requires |g| == |w|
    requires forall k :: 0 <= k < |w| && w[k] != 0 ==> g[k] != OBSTACLE
    ensures |Filter(w, IsVisitedCount)| <= |Filter(g, IsCleanableValue)|
    ensures (forall k :: 0 <= k < |w| ==> w[k] >= 0 && (g[k] != OBSTACLE ==> w[k] != 0))
            ==> |Filter(w, IsVisitedCount)| == |Filter(g, IsCleanableValue)|
  {
    if |w| > 0 {
      RowCounts(g[1..], w[1..]);
    }
  }

  lemma {:induction false} MatrixCounts(grid: Grid, v: Visits)
    requires |grid| == |v|
    requires forall i :: 0 <= i < |v| ==> |v[i]| == |grid[i]|
    requires forall i, j :: 0 <= i < |v| && 0 <= j < |v[i]| && v[i][j] != 0 ==> grid[i][j] != OBSTACLE
    ensures CellsVisited(v) <= CleanableCount(grid)
    ensures (forall i, j :: 0 <= i < |v| && 0 <= j < |v[i]| ==> v[i][j] >= 0 && (grid[i][j] != OBSTACLE ==> v[i][j] != 0))
            ==> CellsVisited(v) == CleanableCount(grid)
  {
    if |v| > 0 {
      MatrixCounts(grid[1..], v[1..]);
      RowCounts(grid[0], v[0]);
      FilterAppend(v[0], Flatten(v[1..]), IsVisitedCount);
      FilterAppend(grid[0], Flatten(grid[1..]), IsCleanableValue);
    }
  }

  /** Cells stood on never outnumber the open cells, and under full
      coverage the two counts agree: a result that reports completion also
      reports `cellsVisited == totalCleanableCells`. */
  lemma VisitedVersusCleanable(grid: Grid, v: Visits)
    requires WellFormed(grid) && Shaped(grid, v) && OnlyOpenVisited(grid, v)
    ensures CellsVisited(v) <= CleanableCount(grid)
    ensures Covered(grid, v) ==> CellsVisited(v) == CleanableCount(grid)
  {
    forall i, j | 0 <= i < |v| && 0 <= j < |v[i]| && v[i][j] != 0
      ensures grid[i][j] != OBSTACLE
    {
      assert VisitsAt(v, Pos(i, j)) != 0;
    }
    if Covered(grid, v) {
      forall i, j | 0 <= i < |v| && 0 <= j < |v[i]|
        ensures grid[i][j] != OBSTACLE ==> v[i][j] != 0
      {
        assert grid[i][j] != OBSTACLE ==> IsOpen(grid, Pos(i, j));
      }
    }
    MatrixCounts(grid, v);
  }
}
